=== FILE: README.md ===
# Core helpers of the Express/Prisma API template, in Dafny

This project models the shared async and type-inference helpers, the
`ApiError` class, the error middleware and the prefix handling of `app.ts`,
and proves properties of them:

- **Batching** (`createBatches`): splits an array into consecutive batches of at
  most `maxBatchSize` elements. A non-array input is a `TypeError` and a
  non-positive size is a `RangeError`.
- **Retrying** (`retry`): invokes a promise-returning task until it fulfils or
  the attempt budget is spent. It sleeps `baseDelay * expFactor^(n-1)`
  milliseconds after the n-th failure. A task is a deterministic script: the
  outcome of its k-th invocation. Each sleep is recorded in a trace instead of
  taking time.
- **Orchestrator** (`processInBatches`): runs the tasks batch after batch,
  each task through `retry`. It collects one outcome per task in input order
  and pauses between batches when a delay is configured. The run is a result
  sequence plus an event trace of settled batches and pauses.
- **TypeInference** (`getType`, `getInterface`, `inferTypesFromData`): renders
  a JavaScript value as a TypeScript type string. It builds an interface
  listing that unites, per key, the types seen under that key across an array
  of records.
- **ApiErrors** (`ApiError`, `toApiResponse`): an error with an HTTP status, a
  business code and data. A missing or empty code falls back to the status in
  decimal, and a missing or empty message to the status's reason phrase.
- **ErrorHandling** (`errorHandler`): maps every thrown error to one response.
  A Zod validation error is a 400. An `ApiError` keeps its own status and
  body. Anything else is a 500 whose debug data appears only outside
  production.
- **ApiPrefix** (`app.ts`): strips one leading and one trailing slash from the
  configured prefix and computes the base path `/<prefix>/v1` (app.ts:25).
  The file mounts nothing under that path.

Supporting modules:

- `Wrappers`: `Option` and `Result`.
- `JsValues`: the JavaScript values (`Json`) shared by the type-inference
  helper and the error model.
- `Seqs`: flattening, ceiling division, and de-duplication in first-seen order,
  which is the iteration order of a JavaScript `Set`.
- `Strings`: joining, lexicographic order, insertion sort, and decimal
  rendering of integers.

Values are unbounded integers and `seq<char>` strings. JavaScript values are
the `JsValues.Json` datatype. The reason-phrase table of
`http-status-codes` and Zod's `flatten().fieldErrors` are function parameters.

## Model

| member | source | states |
|---|---|---|
| Batching.CreateBatches | src/shared/helpers/async.helper.ts:9-22 | A non-array input fails with the TypeError message. Otherwise a size <= 0 fails with the RangeError message. Otherwise the batches concatenate back to the input, every batch is non-empty and at most the size, all but the last are exactly the size, and there are ceil(n / size) of them. |
| Batching.Chunks | src/shared/helpers/async.helper.ts:17-21 | The loop from index i yields a batching of the suffix from i, with ceil((n - i) / size) batches. |
| Batching.ChunkIsSlice | src/shared/helpers/async.helper.ts:18-20 | Batch k from offset i starts inside the data and is exactly `data.slice(i + k*size, i + k*size + size)`, clamped to the array's end. |
| Batching.BatchingUnique | src/shared/helpers/async.helper.ts:3-21 | The shape createBatches produces (concatenation, non-empty batches of at most the size, only the last one short) determines the batches uniquely. |
| Batching.EmptyInputNoBatches | src/shared/helpers/async.helper.ts:17-21 | An empty array with a positive size gives no batches at all, not one empty batch. |
| Seqs.CeilDivIsCeiling | src/shared/helpers/async.helper.ts:45 | The batch count is the least q with q*size >= n, which is `Math.ceil(n / size)`. |
| Retrying.Retry | src/shared/helpers/async.helper.ts:64-83 | The run invokes fn between 1 and the budget times, and every attempt but the last was rejected. It settles with the last attempt's outcome. A rejection means the whole budget was spent. It sleeps once between consecutive attempts, for baseDelay * expFactor^(failures-1) ms after the given number of failures. |
| Retrying.RetryLoop | src/shared/helpers/async.helper.ts:68-82 | The `while (true)` loop entered after `attempts` failures obeys the same trace law from that point on. |
| Retrying.RetryTraceUnique | src/shared/helpers/async.helper.ts:64-83 | At most one trace satisfies that law, so the law is a complete description of `retry`. |
| Retrying.NonPositiveAttemptsLikeOne | src/shared/helpers/async.helper.ts:65-77 | For maxAttempts <= 0 (0 takes the early return, negatives throw after one failure), fn is invoked exactly once with no sleep. This is the same as maxAttempts = 1. |
| Retrying.AlwaysFailingExhaustsBudget | src/shared/helpers/async.helper.ts:72-77 | A task that always rejects is invoked exactly max(1, maxAttempts) times. The last rejection is rethrown, after one sleep fewer than invocations. |
| Retrying.StopsAtFirstSuccess | src/shared/helpers/async.helper.ts:69-71 | If the first fulfilment is attempt k and k is within budget, retry invokes fn exactly k+1 times and resolves with that value. |
| Retrying.DefaultBackoffSchedule | src/shared/helpers/async.helper.ts:78-80 | With four attempts, base 500 and factor 2, a failing task sleeps 500, 1000 and 2000 ms. |
| Orchestrator.ProcessInBatches | src/shared/helpers/async.helper.ts:36-53 | There is one result per task, and result k is what retry of task k settles with, in input order. The events are the batches in order at their start offsets, with a pause of `delay` ms between consecutive batches exactly when delay > 0, and none after the last. |
| Orchestrator.PauseCount | src/shared/helpers/async.helper.ts:39-51 | A run pauses between batches ceil(n / batchSize) - 1 times when delay > 0 and the list is non-empty, and never otherwise. Retry backoff sleeps are not counted. |
| Orchestrator.RunFrom | src/shared/helpers/async.helper.ts:39-51 | The loop from offset i gives the same results and schedule for the remaining tasks. |
| Orchestrator.RunFollowsCreateBatches | src/shared/helpers/async.helper.ts:39-44 | The inline slicing agrees with createBatches. The results are the concatenation, over the batches createBatches would produce, of each batch's settled outcomes. |
| Orchestrator.BatchEventsMatchCreateBatches | src/shared/helpers/async.helper.ts:39-40 | The k-th settled batch event starts at batch k's offset and has batch k's length. |
| Orchestrator.FailureIsolated | src/shared/helpers/async.helper.ts:41-44 | A task that always rejects contributes its rejection reason at its own position. It does not prevent a first-try-fulfilling task from contributing its value. |
| Orchestrator.ThreeBatchesTwoPauses | src/shared/helpers/async.helper.ts:47-50 | Five tasks in batches of two with delay 100 give batch, pause, batch, pause, batch (sizes 2, 2, 1). |
| TypeInference.GetType | src/shared/helpers/type-inference.helper.ts:11-29 | Every branch of getType has its own type string: the kind of the value (null, undefined, boolean, number, string, Date, array, object) can be read back from the string, so no two kinds render alike. |
| TypeInference.ArrayTypeLists | src/shared/helpers/type-inference.helper.ts:16-22 | For a non-empty array, the listed member types have no duplicates and are exactly the element types. They appear in order of first occurrence among the elements. |
| TypeInference.GetInterface | src/shared/helpers/type-inference.helper.ts:38-41 | The interface of any object, empty or not, starts with `{ ` and ends with ` }`. |
| TypeInference.InterfaceShapes | src/shared/helpers/type-inference.helper.ts:38-41 | `{}` renders as `{  }` and a one-field object as `{ key: type }`. |
| TypeInference.InterfaceSnoc | src/shared/helpers/type-inference.helper.ts:39-40 | One more entry after a non-empty list of entries turns the closing ` }` into `; key: type }`. With InterfaceShapes this fixes the rendering for any number of fields, each listed as `key: type` in entry order. |
| TypeInference.TypeNames | src/shared/helpers/type-inference.helper.ts:11-28 | null, undefined, booleans, numbers, strings and Dates are named `null`, `undefined`, `boolean`, `number`, `string` and `Date`. An empty array is `Array<any>`. |
| TypeInference.InferTypesFromData | src/shared/helpers/type-inference.helper.ts:52-73 | With an own-property dictionary (see Findings; the code as written also throws for keys named after Object.prototype properties): it throws exactly when some item is null or undefined, with that message. Otherwise the output is newline-joined lines: the header, then one line per distinct key in first-seen order, then `}`. Each key's line lists, sorted and without duplicates, exactly the types its values had across all items. |
| TypeInference.CollectSucceedsIff | src/shared/helpers/type-inference.helper.ts:55-56 | With an own-property dictionary (see Findings): collecting entries fails if and only if some item is nullish. |
| TypeInference.CollectRepresents | src/shared/helpers/type-inference.helper.ts:55-63 | After the forEach, the dictionary's keys are the distinct keys in first-seen order. Each key's set holds, without duplicates, exactly the types seen under that key. |
| TypeInference.AddTypeRepresents | src/shared/helpers/type-inference.helper.ts:57-61 | One `add` step keeps that representation invariant with the new entry included. |
| TypeInference.ListingOfRepresentation | src/shared/helpers/type-inference.helper.ts:65-72 | The rendered lines of such a dictionary form a valid listing of the entries. |
| TypeInference.ListingFrame | src/shared/helpers/type-inference.helper.ts:65-72 | A successful output begins with `<name> {` and a newline, and ends with a newline and `}`. |
| TypeInference.SingleFieldListed | src/shared/helpers/type-inference.helper.ts:52-73 | With an own-property dictionary (see Findings): a single record with one field is listed as the header, `  key: type;` and `}`, whatever the key. As written this fails for keys named after Object.prototype properties. |
| TypeInference.ConstructorKeyThrows | src/shared/helpers/type-inference.helper.ts:53-61 | As written, a record with a field named `constructor` makes inferTypesFromData throw "typeDefinitions[key].add is not a function". |
| TypeInference.ConstructorKeyListed | src/shared/helpers/type-inference.helper.ts:53-72 | With an own-property dictionary, the same record is listed as `constructor: <type>;`. |
| TypeInference.InferTypesFromDataAsWritten | src/shared/helpers/type-inference.helper.ts:52-73 | The code as written, with a plain `{}` dictionary. On data whose keys avoid Object.prototype's names, it gives the same result as the own-property model TypeInference.InferTypesFromData. |
| Seqs.DistinctFirstSeenOrder | src/shared/helpers/type-inference.helper.ts:21-22 | De-duplication keeps elements in the order of their first occurrence, as a JavaScript `Set` iterates. |
| Strings.Sort | src/shared/helpers/type-inference.helper.ts:67 | `.sort()` returns a permutation of its input in non-decreasing lexicographic order. |
| Strings.SortDistinct | src/shared/helpers/type-inference.helper.ts:67 | Sorting duplicate-free strings gives a strictly increasing list with the same members. |
| Strings.NatToStringRoundTrip | src/core/errors/api.error.ts:30 | A status rendered in decimal is non-empty, all digits, and parses back to the status. |
| Strings.IntToStringInjective | src/core/errors/api.error.ts:30 | Distinct integers have distinct decimal renderings, negatives included. |
| ApiErrors.NewApiError | src/core/errors/api.error.ts:25-34 | The status and data are kept as given. A non-empty code or message is kept. A missing or empty code becomes the status in decimal, and a missing or empty message becomes the status's reason phrase. |
| ApiErrors.ToApiResponse | src/core/errors/api.error.ts:39-45 | The response body carries exactly the error's code, message and data. |
| ApiErrors.FallbackCodeNamesStatus | src/core/errors/api.error.ts:30-45 | For a non-negative status, when no code is supplied, the response code is the status's digits and reads back as the status. |
| ApiErrors.DefaultOptionsBody | src/core/errors/api.error.ts:25-45 | `new ApiError(s).toApiResponse()` is `{ code: String(s), message: reasonPhrase(s), data: undefined }`. |
| ErrorHandling.ErrorHandler | src/core/middleware/error-handler.middleware.ts:9-32 | A Zod error gives 400 with code "400", the 400 phrase and the field errors. An ApiError gives its own status and its toApiResponse body. Any other error gives 500 with code "500" and the 500 phrase, and its data is { name, stack } outside production, the stack being the V8 header `name: message` followed by the frames, and undefined in production. |
| ErrorHandling.DetailsOnlyOutsideProduction | src/core/middleware/error-handler.middleware.ts:25-29 | An unexpected error's response carries data if and only if NODE_ENV is not production. |
| ErrorHandling.NothingDisclosedInProduction | src/core/middleware/error-handler.middleware.ts:25-31 | In production, nothing of an unexpected error (name, message or stack) reaches the response: every unexpected error gets the same 500 body with code "500", the 500 phrase and no data. |
| ErrorHandling.MessageDisclosedOutsideProduction | src/core/middleware/error-handler.middleware.ts:25-31 | Outside production, an error with a name, a message and a recorded stack is sent with `data.stack` = `name: message` followed by the frames, so its message does reach the response. |
| ErrorHandling.NotFoundApiError | src/core/middleware/error-handler.middleware.ts:20-23 | For any non-empty message m, `new ApiError(404, { message: m })` is answered with status 404, code "404" and message m. |
| ApiPrefix.SanitizePrefix | src/app.ts:24 | The regex replace keeps exactly the slice between an optional leading slash and an optional trailing slash. A lone "/" counts as the leading one. |
| ApiPrefix.V1BasePath | src/app.ts:25 | The base path is `/`, then the prefix between its optional edge slashes, then `/v1`. |
| ApiPrefix.StripFromIsSlice | src/app.ts:24 | The position-by-position global replace, from any position, equals that slice. |
| ApiPrefix.NoEdgeSlashUnchanged | src/app.ts:24 | A prefix with no slash at either end is unchanged. |
| ApiPrefix.WrappedPrefix | src/app.ts:24 | Exactly one slash is removed from each end, whatever the inner text holds. |
| ApiPrefix.LeadingSlashRemoved | src/app.ts:24 | A leading slash alone is removed. |
| ApiPrefix.TrailingSlashRemoved | src/app.ts:24 | A trailing slash alone is removed. |
| ApiPrefix.NotIdempotent | src/app.ts:24 | `//api//` becomes `/api/`, which would become `api` if sanitised again. |
| ApiPrefix.CommonPrefixesAgree | src/app.ts:24-25 | `api`, `/api` and `/api/` all give the base path `/api/v1`. |
| ApiPrefix.EdgeSlashesIrrelevant | src/app.ts:24-25 | For any prefix without edge slashes, the base path is `/` + prefix + `/v1`, and adding one slash at the start, the end or both leaves it unchanged. |

## Left out

- `sleep` and timers: a backoff or pause is recorded as a trace event with its length in milliseconds. Elapsed time is not modelled.
- Concurrency inside a batch: tasks are deterministic scripts, so `Promise.allSettled` is modelled as mapping `retry` over the batch in order. allSettled keeps input order regardless of completion order.
- Console output and the pino logger, which have no effect on results.
- Orchestrator.ProcessInBatches: requires batchSize > 0. The source loops forever for batchSize <= 0 on a non-empty task list. For an empty list it returns `[]`, which the model does not cover.
- Orchestrator.ProcessInBatches: a result is a tagged Fulfilled/Rejected outcome. The source stores the bare value or reason, losing the tag.
- Orchestrator.ProcessInBatches: batchSize is a positive integer and delay an integer. The source accepts any number. A fractional or NaN batch size, and a fractional delay, are not modelled.
- Batching.CreateBatches: maxBatchSize is an integer. The source takes any number. NaN passes the `<= 0` check, so `createBatches([x], NaN)` returns one empty batch. A fractional size can give a batch longer than the size: `createBatches([1,2,3,4,5], 2.5)` returns `[[1,2],[3,4,5]]`. Neither case is modelled, so the contract's RangeError covers only integer sizes <= 0.
- Retrying.Retry: baseDelay and expFactor are natural numbers and maxAttempts an integer. Fractional, negative or NaN numbers are not modelled.
- Retrying.Retry: backoff delays are unbounded naturals. The source computes them as floating-point numbers and hands them to `setTimeout`, which fires any delay above 2^31 - 1 ms after 1 ms. That clamp is not modelled.
- Orchestrator.ProcessInBatches: the source slices the task list inline (async.helper.ts:39-40) instead of calling createBatches. Orchestrator.RunFollowsCreateBatches and Orchestrator.BatchEventsMatchCreateBatches prove that the inline slicing gives the batches createBatches would.
- Strings.Sort: JavaScript's default sort compares UTF-16 code units. The model compares characters, which differs only for characters outside the Basic Multilingual Plane.
- TypeInference.InferTypesFromData: JavaScript lists integer-like keys of an object in ascending numeric order before other keys. The model keeps the dictionary in first-insertion order for every key.
- TypeInference.InferTypesFromData: `Object.entries` splits a string item into UTF-16 code units. The model splits it into characters, so a character outside the Basic Multilingual Plane gives one key where JavaScript gives two (`"😀"` lists keys `0` and `1`).
- TypeInference.GetType: functions, symbols, bigints and class instances other than Date are not values of the model. `typeof` is modelled for null, undefined, booleans, numbers (as integers), strings, Dates, arrays and plain objects.
- The example call at the end of type-inference.helper.ts, which only prints.
- `getReasonPhrase` is a total function parameter. The library throws for an unknown status code, and that path is not modelled.
- Zod's `flatten().fieldErrors` is a function parameter. Its contents are not modelled.
- JSON serialisation by `res.json` (for instance that an `undefined` stack is dropped) is not modelled. The response body is the object handed to `res.json`.
- ErrorHandling.ErrorHandler: `err.stack` is V8's header built from the name and message at construction, followed by opaque frames. A stack or name reassigned after construction, and thrown values that are not `Error` objects, are not modelled.
- The health route, Swagger setup, CORS, helmet and rate limiting in app.ts are not part of this model.

## Findings

| source | as written | input that shows it | evidently intended | confidence | as-written member | corrected member |
|---|---|---|---|---|---|---|
| src/shared/helpers/type-inference.helper.ts:53-61 | The dictionary is a plain `{}`. `typeDefinitions[key]` finds inherited Object.prototype properties, so for `constructor`, `toString`, `__proto__`, ... no Set is created and `.add` throws a TypeError. | `inferTypesFromData("I", [{ constructor: 1 }])` | Every own key of every record gets its own set of types, so the output lists `constructor: number;` | high, not executed | TypeInference.ConstructorKeyThrows | TypeInference.ConstructorKeyListed |

=== FILE: api_errors.dfy ===
/**
  `ApiError` (src/core/errors/api.error.ts): an error carrying an HTTP status,
  a business code and optional data, with fallbacks for a missing code or
  message, and its conversion to the standard response body.
*/
module ApiErrors {
  import opened Wrappers
  import opened Strings
  import opened JsValues

  /**
    `getReasonPhrase` of the http-status-codes library, left uninterpreted: the
    standard phrase of a status code ("Bad Request" for 400, ...).
  */
  type ReasonPhrases = int -> string

  /** The constructor's options object; an absent property is `None`, absent `data` is `undefined`. */
  datatype ApiErrorOptions = ApiErrorOptions(code: Option<string>, message: Option<string>, data: Json)

  /** The default `options = {}`. */
  const NoOptions := ApiErrorOptions(None, None, Undefined)

  datatype ApiError = ApiError(httpStatus: int, code: string, message: string, data: Json)

  /** The response body `{ code, message, data }` (src/core/interfaces/api.interface.ts). */
  datatype ApiResponse = ApiResponse(code: string, message: string, data: Json)

  /** JavaScript's `s || fallback` on an optional string: the empty string is falsy too. */
  function OrElse(s: Option<string>, fallback: string): (r: string)
    ensures s.Some? && s.value != "" ==> r == s.value
    ensures s.None? || s.value == "" ==> r == fallback
  {
    if s.Some? && s.value != "" then s.value else fallback
  }

  /**
    `new ApiError(httpStatus, options)`: the status is kept as given, the code
    falls back to the status in decimal and the message to the status's reason
    phrase when missing or empty, and the data is passed through unchanged.
  */
  function NewApiError(httpStatus: int, options: ApiErrorOptions, reasonPhrase: ReasonPhrases): (e: ApiError)
    ensures e.httpStatus == httpStatus
    ensures e.data == options.data
    ensures options.code.Some? && options.code.value != "" ==> e.code == options.code.value
    ensures options.code.None? || options.code.value == "" ==> e.code == IntToString(httpStatus)
    ensures options.message.Some? && options.message.value != "" ==> e.message == options.message.value
    ensures options.message.None? || options.message.value == "" ==> e.message == reasonPhrase(httpStatus)
  {
    var finalMessage := OrElse(options.message, reasonPhrase(httpStatus));
    ApiError(httpStatus, OrElse(options.code, IntToString(httpStatus)), finalMessage, options.data)
  }

  /** `toApiResponse()`: exactly the error's code, message and data. */
  function ToApiResponse(e: ApiError): (r: ApiResponse)
    ensures r.code == e.code && r.message == e.message && r.data == e.data
  {
    ApiResponse(e.code, e.message, e.data)
  }

  /**
    The body of an error built without a code names its status: the fallback
    code is non-empty, all digits for a non-negative status, and reads back as
    that status, so distinct statuses never share a fallback code.
  */
  lemma FallbackCodeNamesStatus(httpStatus: int, options: ApiErrorOptions, reasonPhrase: ReasonPhrases)
    requires httpStatus >= 0
    requires options.code.None? || options.code.value == ""
    ensures var body := ToApiResponse(NewApiError(httpStatus, options, reasonPhrase));
      && |body.code| > 0
      && (forall k :: 0 <= k < |body.code| ==> '0' <= body.code[k] <= '9')
      && ParseDigits(body.code) == httpStatus
  {
    NatToStringRoundTrip(httpStatus);
  }

  /** With the default options the body is the status code, its reason phrase and no data. */
  lemma DefaultOptionsBody(httpStatus: int, reasonPhrase: ReasonPhrases)
    ensures ToApiResponse(NewApiError(httpStatus, NoOptions, reasonPhrase))
      == ApiResponse(IntToString(httpStatus), reasonPhrase(httpStatus), Undefined)
  {
  }
}

=== FILE: api_prefix.dfy ===
/**
  The API base path (src/app.ts): the configured prefix with one leading and
  one trailing slash removed by `replace(/^\/|\/$/g, '')`, then wrapped as
  `/<prefix>/v1`.
*/
module ApiPrefix {

  /**
    The global replace, scanning from `pos`: at each position the engine tries
    `^\/` (only at position 0) and then `\/$` (only at the last position); a
    match is deleted, otherwise the character is kept, and the scan moves on
    by one either way.
  */
  function StripEdgeSlashesFrom(s: string, pos: nat): string
    requires pos <= |s|
    decreases |s| - pos
  {
    if pos == |s| then ""
    else if (pos == 0 && s[0] == '/') || (pos == |s| - 1 && s[pos] == '/') then StripEdgeSlashesFrom(s, pos + 1)
    else [s[pos]] + StripEdgeSlashesFrom(s, pos + 1)
  }

  /** Where the kept part starts: after a leading slash, if any. */
  function KeptStart(s: string): nat
  {
    if |s| > 0 && s[0] == '/' then 1 else 0
  }

  /** Where the kept part ends: before a trailing slash not already removed as the leading one. */
  function KeptEnd(s: string): nat
  {
    if |s| > KeptStart(s) && s[|s| - 1] == '/' then |s| - 1 else |s|
  }

  lemma {:induction false} StripFromIsSlice(s: string, pos: nat)
    requires pos <= |s|
    ensures var a := if pos < KeptStart(s) then KeptStart(s) else pos;
      var b := if pos < KeptEnd(s) then KeptEnd(s) else pos;
      StripEdgeSlashesFrom(s, pos) == s[a..b]
    decreases |s| - pos
  {
    if pos < |s| {
      StripFromIsSlice(s, pos + 1);
    }
  }

  /**
    `env.API_PREFIX.replace(/^\/|\/$/g, '')`: the prefix without one leading
    and one trailing slash. Everything in between is kept as it is, slashes included.
  */
  function SanitizePrefix(prefix: string): (r: string)
    ensures KeptStart(prefix) <= KeptEnd(prefix)
    ensures r == prefix[KeptStart(prefix)..KeptEnd(prefix)]
  {
    StripFromIsSlice(prefix, 0);
    StripEdgeSlashesFrom(prefix, 0)
  }

  /** `/${sanitizedPrefix}/v1`. */
  function V1BasePath(prefix: string): (r: string)
    ensures |r| >= 4 && r[0] == '/' && r[|r| - 3..] == "/v1"
    ensures r[1..|r| - 3] == prefix[KeptStart(prefix)..KeptEnd(prefix)]
  {
    "/" + SanitizePrefix(prefix) + "/v1"
  }

  /** A prefix without a slash at either end is returned unchanged. */
  lemma NoEdgeSlashUnchanged(prefix: string)
    requires |prefix| == 0 || (prefix[0] != '/' && prefix[|prefix| - 1] != '/')
    ensures SanitizePrefix(prefix) == prefix
  {
  }

  /** One slash is removed from each end, and only one: the inner text is kept whatever it holds. */
  lemma WrappedPrefix(inner: string)
    ensures SanitizePrefix("/" + inner + "/") == inner
  {
    var s := "/" + inner + "/";
    assert s[1..|s| - 1] == inner;
  }

  /** A leading slash alone is removed. */
  lemma LeadingSlashRemoved(rest: string)
    requires |rest| == 0 || rest[|rest| - 1] != '/'
    ensures SanitizePrefix("/" + rest) == rest
  {
    var s := "/" + rest;
    assert s[1..] == rest;
  }

  /** A trailing slash alone is removed. */
  lemma TrailingSlashRemoved(rest: string)
    requires |rest| == 0 || rest[0] != '/'
    ensures SanitizePrefix(rest + "/") == rest
  {
    var s := rest + "/";
    assert s[..|s| - 1] == rest;
  }

  /** Sanitising is not idempotent: `//api//` becomes `/api/`, which sanitises again to `api`. */
  lemma NotIdempotent()
    ensures SanitizePrefix("//api//") == "/api/"
    ensures SanitizePrefix(SanitizePrefix("//api//")) == "api"
  {
    WrappedPrefix("/api/");
    assert "/" + "/api/" + "/" == "//api//";
    WrappedPrefix("api");
    assert "/" + "api" + "/" == "/api/";
  }

  /** The usual configurations `api`, `/api` and `/api/` all give the base path `/api/v1`. */
  lemma CommonPrefixesAgree()
    ensures V1BasePath("api") == "/api/v1"
    ensures V1BasePath("/api") == "/api/v1"
    ensures V1BasePath("/api/") == "/api/v1"
  {
    NoEdgeSlashUnchanged("api");
    LeadingSlashRemoved("api");
    assert "/" + "api" == "/api";
    WrappedPrefix("api");
    assert "/" + "api" + "/" == "/api/";
    assert "/" + "api" + "/v1" == "/api/v1";
  }

  /**
    For a prefix without edge slashes, adding one slash at either end or both
    does not change the base path, which is the prefix between `/` and `/v1`.
  */
  lemma EdgeSlashesIrrelevant(prefix: string)
    requires |prefix| == 0 || (prefix[0] != '/' && prefix[|prefix| - 1] != '/')
    ensures V1BasePath(prefix) == "/" + prefix + "/v1"
    ensures V1BasePath("/" + prefix) == V1BasePath(prefix)
    ensures V1BasePath(prefix + "/") == V1BasePath(prefix)
    ensures V1BasePath("/" + prefix + "/") == V1BasePath(prefix)
  {
    NoEdgeSlashUnchanged(prefix);
    LeadingSlashRemoved(prefix);
    TrailingSlashRemoved(prefix);
    WrappedPrefix(prefix);
  }
}

=== FILE: batching.dfy ===
/**
  The batch partitioner `createBatches` (src/shared/helpers/async.helper.ts):
  splits an array into consecutive, order-preserving chunks of at most
  `maxBatchSize` elements.
*/
module Batching {
  import opened Wrappers
  import opened Seqs

  /** The runtime value passed as `data`: TypeScript types it as an array, but any value can arrive. */
  datatype Input<T> = ArrayValue(elems: seq<T>) | NotAnArray

  /** The two exceptions `createBatches` throws. */
  datatype BatchError = TypeError(message: string) | RangeError(message: string)

  const NotAnArrayMessage := "Expected an array to split into batches"
  const NonPositiveSizeMessage := "maxBatchSize must be greater than zero"

  /**
    `batches` is a partition of `data` into chunks of `size`: concatenated they
    give back `data`, no chunk is empty or longer than `size`, and only the last
    chunk may be shorter than `size`.
  */
  ghost predicate IsBatching<T>(batches: seq<seq<T>>, data: seq<T>, size: nat)
  {
    && Flatten(batches) == data
    && (forall k :: 0 <= k < |batches| ==> 0 < |batches[k]| <= size)
    && (forall k :: 0 <= k < |batches| - 1 ==> |batches[k]| == size)
  }

  /**
    The loop `for (i = start; i < data.length; i += size) push(data.slice(i, i + size))`.
    `slice` clamps its end to the length, and once `i + size` reaches the length
    the loop has no further iteration, so continuing from the clamped end is the same.
  */
  function Chunks<T>(data: seq<T>, size: nat, i: nat): (r: seq<seq<T>>)
    requires size > 0 && i <= |data|
    ensures IsBatching(r, data[i..], size)
    ensures |r| == CeilDiv(|data| - i, size)
    decreases |data| - i
  {
    if i == |data| then []
    else
      var j := Min(i + size, |data|);
      var rest := Chunks(data, size, j);
      assert ([data[i..j]] + rest)[1..] == rest;
      assert data[i..j] + data[j..] == data[i..];
      [data[i..j]] + rest
  }

  /**
    `createBatches(data, maxBatchSize)`: validation first (a non-array is a
    TypeError, a non-positive size a RangeError), then the chunking loop.
  */
  function CreateBatches<T>(data: Input<T>, maxBatchSize: int): (r: Result<seq<seq<T>>, BatchError>)
    ensures data.NotAnArray? ==> r == Failure(TypeError(NotAnArrayMessage))
    ensures data.ArrayValue? && maxBatchSize <= 0 ==> r == Failure(RangeError(NonPositiveSizeMessage))
    ensures data.ArrayValue? && maxBatchSize > 0 ==>
      && r.Success?
      && IsBatching(r.value, data.elems, maxBatchSize)
      && |r.value| == CeilDiv(|data.elems|, maxBatchSize)
  {
    if data.NotAnArray? then Failure(TypeError(NotAnArrayMessage))
    else if maxBatchSize <= 0 then Failure(RangeError(NonPositiveSizeMessage))
    else Success(Chunks(data.elems, maxBatchSize, 0))
  }

  /** An empty array yields no batches at all. */
  lemma EmptyInputNoBatches<T>(data: seq<T>, size: int)
    requires |data| == 0 && size > 0
    ensures CreateBatches(ArrayValue(data), size) == Success([])
  {
    var r := CreateBatches(ArrayValue(data), size);
    assert |r.value| == 0;
  }

  /** A batching has no batch exactly when there is no data. */
  lemma BatchingEmptyIff<T>(batches: seq<seq<T>>, data: seq<T>, size: nat)
    requires IsBatching(batches, data, size)
    ensures |batches| == 0 <==> |data| == 0
  {
    if |batches| > 0 {
      assert Flatten(batches) == batches[0] + Flatten(batches[1..]);
    }
  }

  /** The first batch of any batching is the first `size` elements (or all of them). */
  lemma BatchingHead<T>(batches: seq<seq<T>>, data: seq<T>, size: nat)
    requires IsBatching(batches, data, size) && |batches| > 0
    ensures batches[0] == data[..Min(size, |data|)]
    ensures IsBatching(batches[1..], data[|batches[0]|..], size)
  {
    var rest := Flatten(batches[1..]);
    assert data == batches[0] + rest;
    if |batches| == 1 {
      assert rest == [];
    } else {
      assert |batches[0]| == size;
    }
  }

  /**
    A partition into chunks of `size` is unique: any two batchings of the same
    data with the same size are equal. So the contract of `CreateBatches`
    determines its result completely.
  */
  lemma {:induction false} BatchingUnique<T>(a: seq<seq<T>>, b: seq<seq<T>>, data: seq<T>, size: nat)
    requires IsBatching(a, data, size) && IsBatching(b, data, size)
    ensures a == b
    decreases |data|
  {
    BatchingEmptyIff(a, data, size);
    BatchingEmptyIff(b, data, size);
    if |data| > 0 {
      BatchingHead(a, data, size);
      BatchingHead(b, data, size);
      BatchingUnique(a[1..], b[1..], data[|a[0]|..], size);
      assert a == [a[0]] + a[1..];
      assert b == [b[0]] + b[1..];
    }
  }

  /** Batch `k` from offset `i` is exactly the slice `data[i + k * size .. i + k * size + size]`, clamped to the length. */
  lemma {:induction false} ChunkIsSlice<T>(data: seq<T>, size: nat, i: nat, k: nat)
    requires size > 0 && i <= |data|
    requires k < |Chunks(data, size, i)|
    ensures i + k * size < |data|
    ensures Chunks(data, size, i)[k] == data[i + k * size .. Min(i + k * size + size, |data|)]
    decreases k
  {
    var j := Min(i + size, |data|);
    var rest := Chunks(data, size, j);
    assert Chunks(data, size, i) == [data[i..j]] + rest;
    if k > 0 {
      assert Chunks(data, size, i)[k] == rest[k - 1];
      assert j < |data| && j == i + size;
      ChunkIsSlice(data, size, j, k - 1);
      assert (k - 1) * size + size == k * size;
    }
  }

  /** Batch `k` of the whole input, located by its start offset `start = k * size`. */
  lemma ChunkAt<T>(data: seq<T>, size: nat, k: nat, start: nat)
    requires size > 0 && k < |Chunks(data, size, 0)|
    requires start == k * size
    ensures start < |data|
    ensures var batch := Chunks(data, size, 0)[k];
      && |batch| == Min(size, |data| - start)
      && batch == data[start..start + |batch|]
  {
    ChunkIsSlice(data, size, 0, k);
    var batch := Chunks(data, size, 0)[k];
    var end := Min(start + size, |data|);
    assert 0 + k * size == start;
    assert batch == data[start..end];
  }
}

=== FILE: error_handling.dfy ===
/**
  The Express error middleware `errorHandler`
  (src/core/middleware/error-handler.middleware.ts): maps any thrown error to
  one HTTP response. Logging and the Express `res` object are not modelled;
  the middleware's effect is the status and the JSON body it sends.
*/
module ErrorHandling {
  import opened Wrappers
  import opened Strings
  import opened JsValues
  import opened ApiErrors

  /** `NodeEnv` (src/config/constants.ts). */
  datatype NodeEnv = Development | Production | Test

  /** One validation issue of a `ZodError`. */
  datatype ZodIssue = ZodIssue(path: seq<string>, message: string)

  /**
    What reaches the middleware: a `ZodError`, an `ApiError`, or any other
    `Error`. For the last, `frames` is the call-site part of `err.stack`, or
    `None` when no stack was recorded; see `Stack` for the whole property.
  */
  datatype ThrownError =
    | ZodError(issues: seq<ZodIssue>)
    | ApiFailure(error: ApiError)
    | OtherError(name: string, message: string, frames: Option<string>)

  /**
    The first line of a V8 `err.stack`, built as `Error.prototype.toString`
    builds it: the message alone for an empty name, the name alone for an
    empty message, otherwise `name: message`.
  */
  function StackHeader(name: string, message: string): string
  {
    if |name| == 0 then message
    else if |message| == 0 then name
    else name + ": " + message
  }

  /** `err.stack`: the header followed by the frames. */
  function Stack(name: string, message: string, frames: Option<string>): Option<string>
  {
    if frames.Some? then Some(StackHeader(name, message) + frames.value) else None
  }

  /** `err.flatten().fieldErrors` of the zod library, left uninterpreted. */
  type FieldErrors = seq<ZodIssue> -> Json

  datatype HttpResponse = HttpResponse(status: int, body: ApiResponse)

  const BadRequest := 400
  const InternalServerError := 500

  /** `{ name: err.name, stack: err.stack }`, with an absent stack as `undefined`. */
  function ErrorDetails(name: string, stack: Option<string>): Json
  {
    Obj([Member("name", Str(name)), Member("stack", if stack.Some? then Str(stack.value) else Undefined)])
  }

  /**
    `errorHandler(err, req, res, next)`: a `ZodError` is a 400 with the
    standard code and phrase and the field errors as data; an `ApiError` is
    sent with its own status and `toApiResponse()` body; anything else becomes
    a 500 `ApiError` whose data holds the error's name and stack outside
    production and is `undefined` in production.
  */
  function ErrorHandler(err: ThrownError, nodeEnv: NodeEnv, reasonPhrase: ReasonPhrases, fieldErrors: FieldErrors): (r: HttpResponse)
    ensures err.ZodError? ==>
      r == HttpResponse(400, ApiResponse("400", reasonPhrase(400), fieldErrors(err.issues)))
    ensures err.ApiFailure? ==>
      r.status == err.error.httpStatus && r.body == ToApiResponse(err.error)
    ensures err.OtherError? ==>
      && r.status == 500 && r.body.code == "500" && r.body.message == reasonPhrase(500)
      && r.body.data == (if nodeEnv != Production then ErrorDetails(err.name, Stack(err.name, err.message, err.frames)) else Undefined)
  {
    match err
    case ZodError(issues) =>
      assert IntToString(BadRequest) == "400";
      HttpResponse(BadRequest, ApiResponse(IntToString(BadRequest), reasonPhrase(BadRequest), fieldErrors(issues)))
    case ApiFailure(error) =>
      HttpResponse(error.httpStatus, ToApiResponse(error))
    case OtherError(name, message, frames) =>
      var errorData := if nodeEnv != Production then ErrorDetails(name, Stack(name, message, frames)) else Undefined;
      var unexpected := NewApiError(InternalServerError, ApiErrorOptions(None, None, errorData), reasonPhrase);
      assert IntToString(InternalServerError) == "500";
      HttpResponse(unexpected.httpStatus, ToApiResponse(unexpected))
  }

  /** The name and stack of an unexpected error are disclosed exactly when not running in production. */
  lemma DetailsOnlyOutsideProduction(name: string, message: string, frames: Option<string>, nodeEnv: NodeEnv, reasonPhrase: ReasonPhrases, fieldErrors: FieldErrors)
    ensures var r := ErrorHandler(OtherError(name, message, frames), nodeEnv, reasonPhrase, fieldErrors);
      r.body.data != Undefined <==> nodeEnv != Production
  {
  }

  /**
    In production nothing of an unexpected error reaches the client: any two
    unexpected errors, whatever their names, messages and stacks, get the same
    500 response, with no data.
  */
  lemma NothingDisclosedInProduction(e1: ThrownError, e2: ThrownError, reasonPhrase: ReasonPhrases, fieldErrors: FieldErrors)
    requires e1.OtherError? && e2.OtherError?
    ensures ErrorHandler(e1, Production, reasonPhrase, fieldErrors) == ErrorHandler(e2, Production, reasonPhrase, fieldErrors)
    ensures ErrorHandler(e1, Production, reasonPhrase, fieldErrors) == HttpResponse(500, ApiResponse("500", reasonPhrase(500), Undefined))
  {
  }

  /**
    Outside production the message does reach the client, inside the stack:
    for a named error with a message and a recorded stack, `data.stack` is
    `name: message` followed by the frames, so it holds the message right
    after the name and `": "`.
  */
  lemma MessageDisclosedOutsideProduction(name: string, message: string, frames: string, nodeEnv: NodeEnv, reasonPhrase: ReasonPhrases, fieldErrors: FieldErrors)
    requires nodeEnv != Production && |name| > 0 && |message| > 0
    ensures var stack := name + ": " + message + frames;
      && ErrorHandler(OtherError(name, message, Some(frames)), nodeEnv, reasonPhrase, fieldErrors).body.data
           == ErrorDetails(name, Some(stack))
      && stack[|name| + 2 .. |name| + 2 + |message|] == message
  {
    var stack := name + ": " + message + frames;
    assert Stack(name, message, Some(frames)) == Some(stack);
    assert stack == (name + ": ") + message + frames;
  }

  /** An `ApiError` built with only a message keeps its status as the response status and its status as the code. */
  lemma NotFoundApiError(message: string, reasonPhrase: ReasonPhrases, fieldErrors: FieldErrors, nodeEnv: NodeEnv)
    requires message != ""
    ensures var e := NewApiError(404, ApiErrorOptions(None, Some(message), Undefined), reasonPhrase);
      ErrorHandler(ApiFailure(e), nodeEnv, reasonPhrase, fieldErrors)
        == HttpResponse(404, ApiResponse("404", message, Undefined))
  {
    assert IntToString(404) == "404";
  }
}

=== FILE: js_values.dfy ===
/** JavaScript values as the helpers and the error model see them. */
module JsValues {

  /**
    A JavaScript value as the helpers see it. Objects keep their entries in
    `Object.entries` order. Functions, symbols and bigints are not modelled.
  */
  datatype Json =
    | Null
    | Undefined
    | Bool(b: bool)
    | Num(n: int)
    | Str(s: string)
    | Date(time: int)
    | Arr(items: seq<Json>)
    | Obj(members: seq<Member>)

  datatype Member = Member(key: string, value: Json)
}

=== FILE: orchestrator.dfy ===
/**
  The batch orchestrator `processInBatches` (src/shared/helpers/async.helper.ts):
  runs the tasks batch after batch, every task of a batch through `retry`,
  collects one outcome per task in input order, and optionally pauses between
  batches.
*/
module Orchestrator {
  import opened Seqs
  import opened Retrying
  import Batching

  /** What the orchestrator does, in order: settle a batch of tasks, or sleep between batches. */
  datatype Event = BatchSettled(start: nat, size: nat) | Pause(ms: nat)

  /** The resolved result array of `processInBatches` together with the event trace of the run. */
  datatype BatchRun<R, E> = BatchRun(results: seq<Outcome<R, E>>, events: seq<Event>)

  /**
    `Promise.allSettled(batch.map(p => retry(p, ...)))`, each settled entry
    mapped to its value or reason. The tasks are independent deterministic
    scripts, so running them concurrently gives the same outcomes as mapping
    over them in order; `allSettled` keeps input order whatever the completion order.
  */
  function SettleBatch<R, E>(batch: seq<Task<R, E>>, maxAttempts: int, baseDelay: nat, expFactor: nat): seq<Outcome<R, E>>
  {
    seq(|batch|, k requires 0 <= k < |batch| => Retry(batch[k], maxAttempts, baseDelay, expFactor).outcome)
  }

  /** Each batch settled on its own, batch by batch. */
  function SettleEach<R, E>(batches: seq<seq<Task<R, E>>>, maxAttempts: int, baseDelay: nat, expFactor: nat): seq<seq<Outcome<R, E>>>
  {
    if |batches| == 0 then []
    else [SettleBatch(batches[0], maxAttempts, baseDelay, expFactor)] + SettleEach(batches[1..], maxAttempts, baseDelay, expFactor)
  }

  /** Number of tasks in the batch starting at `start`: `slice(start, start + batchSize)` clamped to `n`. */
  function BatchSize(n: nat, batchSize: nat, start: nat): nat
  {
    if start >= n then 0 else Min(batchSize, n - start)
  }

  /** Position of batch `k` in the event trace: every batch but the first is preceded by a pause when pausing is on. */
  function BatchSlot(k: nat, paused: bool): nat
  {
    if paused then 2 * k else k
  }

  /** Position of the pause that follows batch `k`. */
  function PauseSlot(k: nat): nat
  {
    2 * k + 1
  }

  /**
    The schedule of a run over tasks `i .. n`: `ceil((n - i) / batchSize)`
    batches in order, batch `k` covering the `batchSize` tasks from
    `i + k * batchSize` (fewer for the last), and, when `delay > 0`, exactly one
    pause of `delay` between consecutive batches and none after the last.
  */
  ghost predicate IsSchedule(events: seq<Event>, n: nat, batchSize: nat, delay: int, i: nat)
    requires batchSize > 0 && i <= n
  {
    var c := CeilDiv(n - i, batchSize);
    var paused := delay > 0;
    && |events| == (if paused && c > 0 then 2 * c - 1 else c)
    && (forall k :: 0 <= k < c ==>
          events[BatchSlot(k, paused)] == BatchSettled(i + k * batchSize, BatchSize(n, batchSize, i + k * batchSize)))
    && (paused ==> forall k :: 0 <= k < c - 1 ==> events[PauseSlot(k)] == Pause(delay))
  }

  lemma ScheduleBatchAt(events: seq<Event>, n: nat, batchSize: nat, delay: int, i: nat, k: nat)
    requires batchSize > 0 && i <= n
    requires IsSchedule(events, n, batchSize, delay, i)
    requires k < CeilDiv(n - i, batchSize)
    ensures BatchSlot(k, delay > 0) < |events|
    ensures events[BatchSlot(k, delay > 0)] == BatchSettled(i + k * batchSize, BatchSize(n, batchSize, i + k * batchSize))
  {
  }

  lemma ScheduleLast(events: seq<Event>, n: nat, batchSize: nat, delay: int, i: nat)
    requires batchSize > 0 && i < n <= i + batchSize
    requires events == [BatchSettled(i, n - i)]
    ensures IsSchedule(events, n, batchSize, delay, i)
  {
    CeilDivIsCeiling(n - i, batchSize);
    assert CeilDiv(n - i, batchSize) == 1;
    assert 0 * batchSize == 0;
  }

  lemma ScheduleStep(rest: seq<Event>, events: seq<Event>, n: nat, batchSize: nat, delay: int, i: nat)
    requires batchSize > 0 && i + batchSize < n
    requires IsSchedule(rest, n, batchSize, delay, i + batchSize)
    requires events == [BatchSettled(i, batchSize)] + (if delay > 0 then [Pause(delay)] else []) + rest
    ensures IsSchedule(events, n, batchSize, delay, i)
  {
    var c := CeilDiv(n - i, batchSize);
    var paused := delay > 0;
    assert c == 1 + CeilDiv(n - (i + batchSize), batchSize);
    forall k | 0 <= k < c
      ensures events[BatchSlot(k, paused)] == BatchSettled(i + k * batchSize, BatchSize(n, batchSize, i + k * batchSize))
    {
      if k == 0 {
        assert 0 * batchSize == 0;
      } else {
        var start := i + batchSize + (k - 1) * batchSize;
        assert start == i + k * batchSize;
        ScheduleBatchAt(rest, n, batchSize, delay, i + batchSize, k - 1);
        assert events[BatchSlot(k, paused)] == rest[BatchSlot(k - 1, paused)];
      }
    }
    if paused {
      forall k | 0 <= k < c - 1
        ensures events[PauseSlot(k)] == Pause(delay)
      {
        if k > 0 {
          assert events[PauseSlot(k)] == rest[PauseSlot(k - 1)];
        }
      }
    }
  }

  /**
    The `for (i = start; i < promises.length; i += batchSize)` loop of
    `processInBatches`: settle the batch `slice(i, i + batchSize)`, append its
    outcomes, then sleep `delay` if `delay > 0 && i + batchSize < promises.length`.
  */
  function RunFrom<R, E>(tasks: seq<Task<R, E>>, batchSize: nat, delay: int, maxAttempts: int, baseDelay: nat, expFactor: nat, i: nat): (run: BatchRun<R, E>)
    requires batchSize > 0 && i <= |tasks|
    ensures |run.results| == |tasks| - i
    ensures forall k :: 0 <= k < |run.results| ==>
      run.results[k] == Retry(tasks[i + k], maxAttempts, baseDelay, expFactor).outcome
    ensures IsSchedule(run.events, |tasks|, batchSize, delay, i)
    decreases |tasks| - i
  {
    if i == |tasks| then BatchRun([], [])
    else
      var j := Min(i + batchSize, |tasks|);
      var settled := SettleBatch(tasks[i..j], maxAttempts, baseDelay, expFactor);
      var pause := if delay > 0 && i + batchSize < |tasks| then [Pause(delay)] else [];
      var rest := RunFrom(tasks, batchSize, delay, maxAttempts, baseDelay, expFactor, j);
      var run := BatchRun(settled + rest.results, [BatchSettled(i, j - i)] + pause + rest.events);
      if i + batchSize < |tasks| then
        ScheduleStep(rest.events, run.events, |tasks|, batchSize, delay, i);
        run
      else
        assert rest.events == [];
        ScheduleLast(run.events, |tasks|, batchSize, delay, i);
        run
  }

  /**
    `processInBatches(promises, batchSize, delay, maxAttempts, baseDelay,
    expFactor)` with the source's defaults. Exactly one result per task, in
    task order, each the settled outcome of `retry` on that task, so a failing
    task neither aborts the run nor shifts its siblings; the batches and pauses
    follow the schedule above. The source does not validate `batchSize`: with 0
    its loop never advances, so a positive size is required here.
  */
  function ProcessInBatches<R, E>(tasks: seq<Task<R, E>>, batchSize: nat := 10, delay: int := 0, maxAttempts: int := 0, baseDelay: nat := 500, expFactor: nat := 2): (run: BatchRun<R, E>)
    requires batchSize > 0
    ensures |run.results| == |tasks|
    ensures forall k :: 0 <= k < |tasks| ==>
      run.results[k] == Retry(tasks[k], maxAttempts, baseDelay, expFactor).outcome
    ensures IsSchedule(run.events, |tasks|, batchSize, delay, 0)
  {
    var run := RunFrom(tasks, batchSize, delay, maxAttempts, baseDelay, expFactor, 0);
    run
  }

  /**
    The inline slicing of `processInBatches` runs exactly the batches
    `createBatches` would produce: the outcomes are those of the
    `createBatches` batches settled one after another, and the `k`-th batch
    event has the size of the `k`-th of those batches.
  */
  lemma {:induction false} RunFollowsCreateBatches<R, E>(tasks: seq<Task<R, E>>, batchSize: nat, delay: int, maxAttempts: int, baseDelay: nat, expFactor: nat, i: nat)
    requires batchSize > 0 && i <= |tasks|
    ensures RunFrom(tasks, batchSize, delay, maxAttempts, baseDelay, expFactor, i).results
      == Flatten(SettleEach(Batching.Chunks(tasks, batchSize, i), maxAttempts, baseDelay, expFactor))
    decreases |tasks| - i
  {
    var batches := Batching.Chunks(tasks, batchSize, i);
    if i < |tasks| {
      var j := Min(i + batchSize, |tasks|);
      var later := Batching.Chunks(tasks, batchSize, j);
      RunFollowsCreateBatches(tasks, batchSize, delay, maxAttempts, baseDelay, expFactor, j);
      assert batches == [tasks[i..j]] + later;
      assert batches[1..] == later;
      var settled := SettleEach(batches, maxAttempts, baseDelay, expFactor);
      assert settled[1..] == SettleEach(later, maxAttempts, baseDelay, expFactor);
      assert Flatten(settled) == SettleBatch(tasks[i..j], maxAttempts, baseDelay, expFactor) + Flatten(settled[1..]);
      assert RunFrom(tasks, batchSize, delay, maxAttempts, baseDelay, expFactor, i).results
        == SettleBatch(tasks[i..j], maxAttempts, baseDelay, expFactor)
           + RunFrom(tasks, batchSize, delay, maxAttempts, baseDelay, expFactor, j).results;
    }
  }

  /** The `k`-th batch event covers exactly the tasks of the `k`-th batch `createBatches` would produce, so no batch is larger than `batchSize`. */
  lemma BatchEventsMatchCreateBatches<R, E>(tasks: seq<Task<R, E>>, batchSize: nat, delay: int, maxAttempts: int, baseDelay: nat, expFactor: nat, k: nat)
    requires batchSize > 0
    requires k < |Batching.Chunks(tasks, batchSize, 0)|
    ensures var batch := Batching.Chunks(tasks, batchSize, 0)[k];
      && ProcessInBatches(tasks, batchSize, delay, maxAttempts, baseDelay, expFactor).events[BatchSlot(k, delay > 0)]
         == BatchSettled(k * batchSize, |batch|)
      && 0 < |batch| <= batchSize
      && batch == tasks[k * batchSize .. k * batchSize + |batch|]
  {
    var events := ProcessInBatches(tasks, batchSize, delay, maxAttempts, baseDelay, expFactor).events;
    BatchEventAt(tasks, events, batchSize, delay, k, k * batchSize);
  }

  /** The same, for any schedule of the tasks, with the batch's start offset named. */
  lemma BatchEventAt<R, E>(tasks: seq<Task<R, E>>, events: seq<Event>, batchSize: nat, delay: int, k: nat, start: nat)
    requires batchSize > 0
    requires IsSchedule(events, |tasks|, batchSize, delay, 0)
    requires k < |Batching.Chunks(tasks, batchSize, 0)|
    requires start == k * batchSize
    ensures var batch := Batching.Chunks(tasks, batchSize, 0)[k];
      && BatchSlot(k, delay > 0) < |events|
      && events[BatchSlot(k, delay > 0)] == BatchSettled(start, |batch|)
      && 0 < |batch| <= batchSize
      && start + |batch| <= |tasks|
      && batch == tasks[start .. start + |batch|]
  {
    Batching.ChunkAt(tasks, batchSize, k, start);
    ScheduleBatchAtOffset(events, |tasks|, batchSize, delay, k, start);
    assert BatchSize(|tasks|, batchSize, start) == Min(batchSize, |tasks| - start);
  }

  lemma ScheduleBatchAtOffset(events: seq<Event>, n: nat, batchSize: nat, delay: int, k: nat, start: nat)
    requires batchSize > 0
    requires IsSchedule(events, n, batchSize, delay, 0)
    requires k < CeilDiv(n, batchSize)
    requires start == k * batchSize
    ensures BatchSlot(k, delay > 0) < |events|
    ensures events[BatchSlot(k, delay > 0)] == BatchSettled(start, BatchSize(n, batchSize, start))
  {
    ScheduleBatchAt(events, n, batchSize, delay, 0, k);
  }

  /**
    Failure isolation: a task that always rejects leaves its rejection in its
    own slot, and a sibling whose first attempt fulfils keeps its value in its slot.
  */
  lemma FailureIsolated<R, E>(tasks: seq<Task<R, E>>, batchSize: nat, delay: int, maxAttempts: int, baseDelay: nat, expFactor: nat, bad: nat, good: nat)
    requires batchSize > 0
    requires bad < |tasks| && good < |tasks|
    requires forall a :: tasks[bad](a).Rejected?
    requires tasks[good](0).Fulfilled?
    ensures var results := ProcessInBatches(tasks, batchSize, delay, maxAttempts, baseDelay, expFactor).results;
      && |results| == |tasks|
      && results[bad] == tasks[bad](Budget(maxAttempts) - 1)
      && results[good] == tasks[good](0)
  {
    AlwaysFailingExhaustsBudget(tasks[bad], maxAttempts, baseDelay, expFactor);
    StopsAtFirstSuccess(tasks[good], maxAttempts, baseDelay, expFactor, 0);
  }

  /** Five tasks in batches of two with a 100 ms pause: three batches and exactly two pauses, none after the last batch. */
  lemma ThreeBatchesTwoPauses<R, E>(tasks: seq<Task<R, E>>, maxAttempts: int)
    requires |tasks| == 5
    ensures ProcessInBatches(tasks, 2, 100, maxAttempts).events
      == [BatchSettled(0, 2), Pause(100), BatchSettled(2, 2), Pause(100), BatchSettled(4, 1)]
  {
    var events := ProcessInBatches(tasks, 2, 100, maxAttempts).events;
    assert CeilDiv(5, 2) == 3;
    assert events[BatchSlot(0, true)] == BatchSettled(0, 2);
    assert events[BatchSlot(1, true)] == BatchSettled(2, 2);
    assert events[BatchSlot(2, true)] == BatchSettled(4, 1);
    assert events[PauseSlot(0)] == Pause(100);
    assert events[PauseSlot(1)] == Pause(100);
  }

  /**
    Number of pauses between batches (the `sleep(delay)` of
    src/shared/helpers/async.helper.ts:49) in an event trace. The backoff
    sleeps of `retry` belong to each task's own retry trace, not to this one.
  */
  function Pauses(events: seq<Event>): nat
  {
    if |events| == 0 then 0
    else (if events[0].Pause? then 1 else 0) + Pauses(events[1..])
  }

  /**
    A run pauses between batches `ceil(n / batchSize) - 1` times when
    `delay > 0` (once between each two consecutive batches) and never
    otherwise. Retry backoff sleeps are not counted here.
  */
  lemma PauseCount<R, E>(tasks: seq<Task<R, E>>, batchSize: nat, delay: int, maxAttempts: int, baseDelay: nat, expFactor: nat)
    requires batchSize > 0
    ensures Pauses(ProcessInBatches(tasks, batchSize, delay, maxAttempts, baseDelay, expFactor).events)
      == if delay > 0 && |tasks| > 0 then CeilDiv(|tasks|, batchSize) - 1 else 0
  {
    PauseCountFrom(tasks, batchSize, delay, maxAttempts, baseDelay, expFactor, 0);
  }

  lemma {:induction false} PauseCountFrom<R, E>(tasks: seq<Task<R, E>>, batchSize: nat, delay: int, maxAttempts: int, baseDelay: nat, expFactor: nat, i: nat)
    requires batchSize > 0 && i <= |tasks|
    ensures Pauses(RunFrom(tasks, batchSize, delay, maxAttempts, baseDelay, expFactor, i).events)
      == if delay > 0 && i < |tasks| then CeilDiv(|tasks| - i, batchSize) - 1 else 0
    decreases |tasks| - i
  {
    var n := |tasks|;
    if i < n {
      var j := Min(i + batchSize, n);
      var rest := RunFrom(tasks, batchSize, delay, maxAttempts, baseDelay, expFactor, j).events;
      var pause := if delay > 0 && i + batchSize < n then [Pause(delay)] else [];
      var events := RunFrom(tasks, batchSize, delay, maxAttempts, baseDelay, expFactor, i).events;
      assert events == [BatchSettled(i, j - i)] + (pause + rest);
      assert Pauses(events) == Pauses(pause + rest);
      PauseCountFrom(tasks, batchSize, delay, maxAttempts, baseDelay, expFactor, j);
      if i + batchSize < n {
        assert CeilDiv(n - i, batchSize) == 1 + CeilDiv(n - j, batchSize);
        if delay > 0 {
          assert (pause + rest)[1..] == rest;
        } else {
          assert pause + rest == rest;
        }
      } else {
        assert rest == [] && pause == [];
        assert CeilDiv(n - i, batchSize) == 1;
      }
    }
  }
}

=== FILE: retrying.dfy ===
/**
  The retry policy `retry(fn, maxAttempts, baseDelay, expFactor)`
  (src/shared/helpers/async.helper.ts). A task is a deterministic script: the
  outcome of its attempt number `k` (counted from 0). Sleeping is not modelled
  as elapsed time; each backoff is recorded in the returned trace.
*/
module Retrying {

  /** How a promise settles. */
  datatype Outcome<+R, +E> = Fulfilled(value: R) | Rejected(reason: E)

  /** A task `() => Promise<R>`, as the outcome of each successive invocation. */
  type Task<R, E> = nat -> Outcome<R, E>

  /**
    What one call of `retry` does: how it settles, how many times it invoked
    `fn`, and the backoff delay (in milliseconds) slept before each re-invocation.
  */
  datatype RetryTrace<R, E> = RetryTrace(outcome: Outcome<R, E>, invocations: nat, delays: seq<nat>)

  function Pow(b: nat, e: nat): nat
  {
    if e == 0 then 1 else b * Pow(b, e - 1)
  }

  /** The most invocations a `maxAttempts` setting allows: `max(1, maxAttempts)`. */
  function Budget(maxAttempts: int): nat
  {
    if maxAttempts <= 1 then 1 else maxAttempts
  }

  /** The sleep after the `failures`-th failed attempt: `baseDelay * expFactor^(failures - 1)`. */
  function BackoffDelay(baseDelay: nat, expFactor: nat, failures: nat): nat
    requires failures >= 1
  {
    baseDelay * Pow(expFactor, failures - 1)
  }

  /**
    The retry policy, stated declaratively: `fn` is invoked until it fulfils or
    the budget `max(1, maxAttempts)` is spent; every invocation but the last
    was rejected; the result is the last invocation's outcome; a rejection is
    surfaced only once the budget is spent; and before the `k`-th
    re-invocation the policy sleeps `baseDelay * expFactor^(k - 1)`.
  */
  ghost predicate IsRetryTrace<R, E>(fn: Task<R, E>, maxAttempts: int, baseDelay: nat, expFactor: nat, t: RetryTrace<R, E>)
  {
    && 1 <= t.invocations <= Budget(maxAttempts)
    && (forall k :: 0 <= k < t.invocations - 1 ==> fn(k).Rejected?)
    && t.outcome == fn(t.invocations - 1)
    && (t.outcome.Rejected? ==> t.invocations == Budget(maxAttempts))
    && |t.delays| == t.invocations - 1
    && (forall k :: 0 <= k < |t.delays| ==> t.delays[k] == BackoffDelay(baseDelay, expFactor, k + 1))
  }

  /**
    The `while (true)` loop of `retry`, entered with `attempts` failures so far:
    invoke `fn`; on fulfilment return; on rejection count the failure, rethrow
    once `attempts >= maxAttempts`, otherwise sleep and go round again.
  */
  function RetryLoop<R, E>(fn: Task<R, E>, maxAttempts: int, baseDelay: nat, expFactor: nat, attempts: nat): (t: RetryTrace<R, E>)
    requires attempts < Budget(maxAttempts)
    ensures attempts < t.invocations <= Budget(maxAttempts)
    ensures forall k :: attempts <= k < t.invocations - 1 ==> fn(k).Rejected?
    ensures t.outcome == fn(t.invocations - 1)
    ensures t.outcome.Rejected? ==> t.invocations == Budget(maxAttempts)
    ensures |t.delays| == t.invocations - 1 - attempts
    ensures forall k :: 0 <= k < |t.delays| ==> t.delays[k] == BackoffDelay(baseDelay, expFactor, attempts + k + 1)
    decreases Budget(maxAttempts) - attempts
  {
    match fn(attempts)
    case Fulfilled(v) => RetryTrace(Fulfilled(v), attempts + 1, [])
    case Rejected(error) =>
      var failures := attempts + 1;
      if failures >= maxAttempts then RetryTrace(Rejected(error), failures, [])
      else
        var rest := RetryLoop(fn, maxAttempts, baseDelay, expFactor, failures);
        RetryTrace(rest.outcome, rest.invocations, [BackoffDelay(baseDelay, expFactor, failures)] + rest.delays)
  }

  /**
    `retry(fn, maxAttempts, baseDelay, expFactor)`. With `maxAttempts === 0`
    it returns `fn()` directly; otherwise it runs the retry loop.
  */
  function Retry<R, E>(fn: Task<R, E>, maxAttempts: int, baseDelay: nat, expFactor: nat): (t: RetryTrace<R, E>)
    ensures IsRetryTrace(fn, maxAttempts, baseDelay, expFactor, t)
  {
    if maxAttempts == 0 then RetryTrace(fn(0), 1, [])
    else RetryLoop(fn, maxAttempts, baseDelay, expFactor, 0)
  }

  /** The declarative policy admits exactly one trace, so it pins `Retry` down completely. */
  lemma RetryTraceUnique<R, E>(fn: Task<R, E>, maxAttempts: int, baseDelay: nat, expFactor: nat, t1: RetryTrace<R, E>, t2: RetryTrace<R, E>)
    requires IsRetryTrace(fn, maxAttempts, baseDelay, expFactor, t1)
    requires IsRetryTrace(fn, maxAttempts, baseDelay, expFactor, t2)
    ensures t1 == t2
  {
    InvocationsAgree(fn, maxAttempts, baseDelay, expFactor, t1, t2);
    InvocationsAgree(fn, maxAttempts, baseDelay, expFactor, t2, t1);
    assert t1.delays == t2.delays;
  }

  lemma InvocationsAgree<R, E>(fn: Task<R, E>, maxAttempts: int, baseDelay: nat, expFactor: nat, t1: RetryTrace<R, E>, t2: RetryTrace<R, E>)
    requires IsRetryTrace(fn, maxAttempts, baseDelay, expFactor, t1)
    requires IsRetryTrace(fn, maxAttempts, baseDelay, expFactor, t2)
    ensures t1.invocations <= t2.invocations
  {
    var last: nat := t2.invocations - 1;
    assert last < t1.invocations - 1 ==> fn(last).Rejected?;
  }

  /** `maxAttempts` of 0, or any negative value, behaves exactly like 1: one invocation, outcome unchanged, no delay. */
  lemma NonPositiveAttemptsLikeOne<R, E>(fn: Task<R, E>, maxAttempts: int, baseDelay: nat, expFactor: nat)
    requires maxAttempts <= 0
    ensures Retry(fn, maxAttempts, baseDelay, expFactor) == Retry(fn, 1, baseDelay, expFactor)
    ensures Retry(fn, maxAttempts, baseDelay, expFactor) == RetryTrace(fn(0), 1, [])
  {
    RetryTraceUnique(fn, 1, baseDelay, expFactor, Retry(fn, maxAttempts, baseDelay, expFactor), Retry(fn, 1, baseDelay, expFactor));
  }

  /** A task that always rejects is invoked exactly `max(1, maxAttempts)` times; its last rejection is surfaced. */
  lemma AlwaysFailingExhaustsBudget<R, E>(fn: Task<R, E>, maxAttempts: int, baseDelay: nat, expFactor: nat)
    requires forall k :: fn(k).Rejected?
    ensures Retry(fn, maxAttempts, baseDelay, expFactor).invocations == Budget(maxAttempts)
    ensures Retry(fn, maxAttempts, baseDelay, expFactor).outcome == fn(Budget(maxAttempts) - 1)
    ensures |Retry(fn, maxAttempts, baseDelay, expFactor).delays| == Budget(maxAttempts) - 1
  {
    var t := Retry(fn, maxAttempts, baseDelay, expFactor);
    assert fn(t.invocations - 1).Rejected?;
  }

  /** Retrying stops at the first fulfilled attempt when it falls within the budget. */
  lemma StopsAtFirstSuccess<R, E>(fn: Task<R, E>, maxAttempts: int, baseDelay: nat, expFactor: nat, k: nat)
    requires k < Budget(maxAttempts)
    requires fn(k).Fulfilled?
    requires forall j :: 0 <= j < k ==> fn(j).Rejected?
    ensures Retry(fn, maxAttempts, baseDelay, expFactor).invocations == k + 1
    ensures Retry(fn, maxAttempts, baseDelay, expFactor).outcome == fn(k)
  {
    var t := Retry(fn, maxAttempts, baseDelay, expFactor);
    var last: nat := t.invocations - 1;
    assert last < k ==> fn(last).Rejected?;
    assert t.invocations - 1 > k ==> fn(k).Rejected?;
  }

  /** With a base delay of 500 ms and factor 2, a task that keeps failing sleeps 500, 1000 and 2000 ms across four attempts. */
  lemma DefaultBackoffSchedule<R, E>(fn: Task<R, E>)
    requires forall k :: fn(k).Rejected?
    ensures Retry(fn, 4, 500, 2).delays == [500, 1000, 2000]
  {
    AlwaysFailingExhaustsBudget(fn, 4, 500, 2);
    var d := Retry(fn, 4, 500, 2).delays;
    assert d[0] == BackoffDelay(500, 2, 1) == 500;
    assert d[1] == BackoffDelay(500, 2, 2) == 1000;
    assert d[2] == BackoffDelay(500, 2, 3) == 2000;
  }
}

=== FILE: seqs.dfy ===
/** Sequence helpers shared by the batching, orchestration and type-inference models. */
module Seqs {

  /** Concatenation of a sequence of sequences, left to right. */
  function Flatten<T>(xss: seq<seq<T>>): seq<T>
  {
    if |xss| == 0 then [] else xss[0] + Flatten(xss[1..])
  }

  lemma AppendAssoc<T>(a: seq<T>, b: seq<T>, c: seq<T>)
    ensures a + b + c == a + (b + c)
  {
  }

  function Min(a: int, b: int): int
  {
    if a <= b then a else b
  }

  /** Rounded-up quotient, `Math.ceil(n / d)` for naturals: one per started block of `d`. */
  function CeilDiv(n: nat, d: nat): nat
    requires d > 0
  {
    if n == 0 then 0 else if n <= d then 1 else 1 + CeilDiv(n - d, d)
  }

  /** `CeilDiv(n, d)` is the least `q` with `q * d >= n`. */
  lemma {:induction false} CeilDivIsCeiling(n: nat, d: nat)
    requires d > 0
    ensures CeilDiv(n, d) * d >= n
    ensures n > 0 ==> (CeilDiv(n, d) - 1) * d < n
  {
    if n > d {
      CeilDivIsCeiling(n - d, d);
      var q := CeilDiv(n - d, d);
      assert (q + 1) * d == q * d + d;
      assert q * d == (q - 1) * d + d;
    }
  }

  /** No value occurs twice. */
  ghost predicate NoDup<T>(xs: seq<T>)
  {
    forall i, j :: 0 <= i < j < |xs| ==> xs[i] != xs[j]
  }

  /** Position of the first occurrence of `x` in `xs`. */
  function FirstIndex<T(==)>(xs: seq<T>, x: T): (k: nat)
    requires x in xs
    ensures k < |xs| && xs[k] == x
    ensures forall j :: 0 <= j < k ==> xs[j] != x
  {
    if xs[0] == x then 0 else 1 + FirstIndex(xs[1..], x)
  }

  /**
    The distinct values of `xs` in order of first occurrence: what
    `Array.from(new Set(xs))` yields, since a JavaScript `Set` iterates in
    insertion order and ignores re-insertions.
  */
  function Distinct<T(==)>(xs: seq<T>): (r: seq<T>)
    ensures NoDup(r)
    ensures forall i :: 0 <= i < |r| ==> r[i] in xs
    ensures forall i :: 0 <= i < |xs| ==> xs[i] in r
    ensures |r| <= |xs|
  {
    if |xs| == 0 then []
    else
      var d := Distinct(xs[..|xs| - 1]);
      if xs[|xs| - 1] in d then d else d + [xs[|xs| - 1]]
  }

  /** Appending a value to the input appends it to the distinct values exactly when it is new. */
  lemma DistinctSnoc<T>(xs: seq<T>, x: T)
    ensures Distinct(xs + [x]) == if x in Distinct(xs) then Distinct(xs) else Distinct(xs) + [x]
  {
    assert (xs + [x])[..|xs|] == xs;
  }

  /** `Distinct` keeps the values in the order in which each is first seen. */
  lemma {:induction false} DistinctFirstSeenOrder<T>(xs: seq<T>, i: nat, j: nat)
    requires i < j < |Distinct(xs)|
    ensures FirstIndex(xs, Distinct(xs)[i]) < FirstIndex(xs, Distinct(xs)[j])
  {
    var n := |xs|;
    var init := xs[..n - 1];
    var d := Distinct(init);
    var r := Distinct(xs);
    assert r == if xs[n - 1] in d then d else d + [xs[n - 1]];
    FirstIndexPrefix(xs, r[i]);
    if j < |d| {
      assert r[i] == d[i] && r[j] == d[j];
      DistinctFirstSeenOrder(init, i, j);
      FirstIndexPrefix(xs, r[j]);
    } else {
      assert r[j] == xs[n - 1] && xs[n - 1] !in init;
      assert r[i] == d[i] && r[i] in init;
      assert FirstIndex(xs, r[i]) < n - 1;
      assert FirstIndex(xs, r[j]) == n - 1;
    }
  }

  /** All pairs at once: `Distinct` lists values in order of first occurrence. */
  lemma DistinctOrdered<T>(xs: seq<T>)
    ensures forall i, j :: 0 <= i < j < |Distinct(xs)| ==>
      FirstIndex(xs, Distinct(xs)[i]) < FirstIndex(xs, Distinct(xs)[j])
  {
    forall i, j | 0 <= i < j < |Distinct(xs)|
      ensures FirstIndex(xs, Distinct(xs)[i]) < FirstIndex(xs, Distinct(xs)[j])
    {
      DistinctFirstSeenOrder(xs, i, j);
    }
  }

  lemma FirstIndexPrefix<T>(xs: seq<T>, x: T)
    requires |xs| > 0 && x in xs[..|xs| - 1]
    ensures FirstIndex(xs, x) == FirstIndex(xs[..|xs| - 1], x)
  {
    var init := xs[..|xs| - 1];
    var k := FirstIndex(init, x);
    var k' := FirstIndex(xs, x);
    assert xs[k] == x;
    assert k' <= k;
    assert init[k'] == x;
  }
}

=== FILE: strings.dfy ===
/** String helpers: `Array.prototype.join`, the default `sort` order, and `Number.prototype.toString` for integers. */
module Strings {
  import opened Seqs

  /** `parts.join(sep)`. */
  function Join(sep: string, parts: seq<string>): string
  {
    if |parts| == 0 then ""
    else if |parts| == 1 then parts[0]
    else parts[0] + sep + Join(sep, parts[1..])
  }

  /** Joining one more part appends the separator and that part. */
  lemma {:induction false} JoinSnoc(sep: string, parts: seq<string>, p: string)
    requires |parts| > 0
    ensures Join(sep, parts + [p]) == Join(sep, parts) + sep + p
    decreases |parts|
  {
    if |parts| == 1 {
      assert parts + [p] == [parts[0], p];
      assert Join(sep, [parts[0], p]) == parts[0] + sep + Join(sep, [p]);
    } else {
      assert (parts + [p])[1..] == parts[1..] + [p];
      JoinSnoc(sep, parts[1..], p);
      assert Join(sep, parts + [p]) == parts[0] + sep + (Join(sep, parts[1..]) + sep + p);
    }
  }

  /**
    The order `Array.prototype.sort` uses when given no comparator: strings
    compared element by element, a proper prefix first.
  */
  predicate LexLess(a: string, b: string)
  {
    if |a| == 0 then |b| > 0
    else if |b| == 0 then false
    else if a[0] < b[0] then true
    else if a[0] == b[0] then LexLess(a[1..], b[1..])
    else false
  }

  lemma {:induction false} LexLessTotal(a: string, b: string)
    requires a != b
    ensures LexLess(a, b) || LexLess(b, a)
  {
    if |a| > 0 && |b| > 0 && a[0] == b[0] {
      assert a == [a[0]] + a[1..] && b == [b[0]] + b[1..];
      LexLessTotal(a[1..], b[1..]);
    }
  }

  lemma {:induction false} LexLessAsymmetric(a: string, b: string)
    requires LexLess(a, b)
    ensures !LexLess(b, a)
  {
    if |a| > 0 && |b| > 0 && a[0] == b[0] { LexLessAsymmetric(a[1..], b[1..]); }
  }

  lemma {:induction false} LexLessTransitive(a: string, b: string, c: string)
    requires LexLess(a, b) && LexLess(b, c)
    ensures LexLess(a, c)
  {
    if |a| > 0 && |b| > 0 && |c| > 0 && a[0] == b[0] && b[0] == c[0] {
      LexLessTransitive(a[1..], b[1..], c[1..]);
    }
  }

  /** No later element is smaller than an earlier one. */
  ghost predicate Sorted(xs: seq<string>)
  {
    forall i, j :: 0 <= i < j < |xs| ==> !LexLess(xs[j], xs[i])
  }

  /** Every earlier element is smaller than every later one (sorted and duplicate-free). */
  ghost predicate StrictlySorted(xs: seq<string>)
  {
    forall i, j :: 0 <= i < j < |xs| ==> LexLess(xs[i], xs[j])
  }

  /** One insertion step: `x` placed before the first element not smaller than it. */
  function Insert(x: string, xs: seq<string>): (r: seq<string>)
    requires Sorted(xs)
    ensures Sorted(r)
    ensures multiset(r) == multiset(xs) + multiset{x}
  {
    if |xs| == 0 then [x]
    else if LexLess(xs[0], x) then
      var tail := Insert(x, xs[1..]);
      assert xs == [xs[0]] + xs[1..];
      forall j | 0 <= j < |tail| ensures !LexLess(tail[j], xs[0])
      {
        assert tail[j] in multiset(tail);
        if tail[j] == x {
          LexLessAsymmetric(xs[0], x);
        } else {
          assert tail[j] in multiset(xs[1..]);
          var m :| 0 <= m < |xs[1..]| && xs[1..][m] == tail[j];
          assert xs[m + 1] == tail[j];
        }
      }
      [xs[0]] + tail
    else
      forall j | 0 <= j < |xs| ensures !LexLess(xs[j], x)
      {
        if LexLess(xs[j], x) {
          if j > 0 {
            assert !LexLess(xs[j], xs[0]);
            if xs[j] == xs[0] {
            } else {
              LexLessTotal(xs[j], xs[0]);
              LexLessTransitive(xs[0], xs[j], x);
            }
          }
        }
      }
      [x] + xs
  }

  /** Insertion sort: the default-order `sort()` of an array of strings. */
  function Sort(xs: seq<string>): (r: seq<string>)
    ensures Sorted(r)
    ensures multiset(r) == multiset(xs)
  {
    if |xs| == 0 then []
    else
      assert xs == [xs[0]] + xs[1..];
      Insert(xs[0], Sort(xs[1..]))
  }

  /** Sorting duplicate-free strings gives a strictly ascending sequence of the same strings. */
  lemma SortDistinct(xs: seq<string>)
    requires NoDup(xs)
    ensures StrictlySorted(Sort(xs))
    ensures forall i :: 0 <= i < |xs| ==> xs[i] in Sort(xs)
    ensures forall i :: 0 <= i < |Sort(xs)| ==> Sort(xs)[i] in xs
  {
    var r := Sort(xs);
    forall i | 0 <= i < |xs| ensures xs[i] in r
    {
      assert xs[i] in multiset(xs);
    }
    forall i | 0 <= i < |r| ensures r[i] in xs
    {
      assert r[i] in multiset(r);
    }
    forall i, j | 0 <= i < j < |r| ensures LexLess(r[i], r[j])
    {
      if r[i] == r[j] {
        NoDupMultiset(xs, r[i]);
        assert multiset(r)[r[i]] <= 1;
        MultisetTwoPositions(r, i, j);
      }
      LexLessTotal(r[i], r[j]);
    }
  }

  lemma {:induction false} NoDupMultiset<T>(xs: seq<T>, x: T)
    requires NoDup(xs)
    ensures multiset(xs)[x] <= 1
  {
    if |xs| > 0 {
      assert xs == [xs[0]] + xs[1..];
      NoDupMultiset(xs[1..], x);
      if xs[0] == x {
        assert x !in xs[1..];
      }
    }
  }

  lemma {:induction false} MultisetTwoPositions<T>(xs: seq<T>, i: nat, j: nat)
    requires i < j < |xs| && xs[i] == xs[j]
    ensures multiset(xs)[xs[i]] >= 2
  {
    assert xs == xs[..j] + [xs[j]] + xs[j + 1..];
    assert xs[i] in multiset(xs[..j]);
  }

  function DigitChar(d: nat): char
    requires d < 10
  {
    "0123456789"[d]
  }

  function DigitValue(c: char): nat
  {
    if '0' <= c <= '9' then (c as int - '0' as int) as nat else 0
  }

  /** Decimal digits of a natural number, most significant first, no leading zero. */
  function NatToString(n: nat): string
  {
    if n < 10 then [DigitChar(n)] else NatToString(n / 10) + [DigitChar(n % 10)]
  }

  /** `x.toString()` for an integer `x`: its decimal digits, with a leading `-` when negative. */
  function IntToString(x: int): string
  {
    if x < 0 then "-" + NatToString(-x) else NatToString(x)
  }

  /** Reads a string of decimal digits back as a number. */
  function ParseDigits(s: string): nat
  {
    if |s| == 0 then 0 else 10 * ParseDigits(s[..|s| - 1]) + DigitValue(s[|s| - 1])
  }

  /** The decimal rendering is non-empty, all digits, and reads back as the same number. */
  lemma {:induction false} NatToStringRoundTrip(n: nat)
    ensures |NatToString(n)| > 0
    ensures forall k :: 0 <= k < |NatToString(n)| ==> '0' <= NatToString(n)[k] <= '9'
    ensures ParseDigits(NatToString(n)) == n
  {
    var s := NatToString(n);
    if n >= 10 {
      NatToStringRoundTrip(n / 10);
      assert s[..|s| - 1] == NatToString(n / 10);
      assert DigitValue(DigitChar(n % 10)) == n % 10;
    } else {
      assert DigitValue(DigitChar(n)) == n;
    }
  }

  /** The rendering starts with `-` exactly for negative numbers. */
  lemma IntToStringSign(x: int)
    ensures |IntToString(x)| > 0
    ensures IntToString(x)[0] == '-' <==> x < 0
  {
    var n: nat := if x < 0 then -x else x;
    NatToStringRoundTrip(n);
    assert '0' <= NatToString(n)[0] <= '9';
  }

  /** Distinct numbers render as distinct strings. */
  lemma IntToStringInjective(x: int, y: int)
    requires IntToString(x) == IntToString(y)
    ensures x == y
  {
    IntToStringSign(x);
    IntToStringSign(y);
    var s := IntToString(x);
    if x < 0 {
      NatToStringRoundTrip(-x);
      NatToStringRoundTrip(-y);
      assert s[1..] == NatToString(-x) && s[1..] == NatToString(-y);
    } else {
      NatToStringRoundTrip(x);
      NatToStringRoundTrip(y);
    }
  }
}

=== FILE: type_inference.dfy ===
/**
  The type-inference helper (src/shared/helpers/type-inference.helper.ts):
  renders a JavaScript value as a TypeScript type string, and builds an
  interface listing from an array of records by uniting, per key, the types
  seen under that key.
*/
module TypeInference {
  import opened Wrappers
  import opened Seqs
  import opened Strings
  import opened JsValues

  /** The thrown `TypeError`. */
  datatype TypeError = TypeError(message: string)

  /** `getType(value)`: the TypeScript type of a value, recursively for arrays and objects. */
  function GetType(v: Json): (r: string)
    ensures KindOfType(r) == Some(KindOf(v))
    decreases v, 2
  {
    match v
    case Null => "null"
    case Undefined => "undefined"
    case Arr(items) =>
      if |items| == 0 then "Array<any>"
      else "Array<" + Join(" | ", Distinct(ElementTypes(items))) + ">"
    case Date(_) => "Date"
    case Obj(members) => GetInterface(members)
    case Bool(_) => "boolean"
    case Num(_) => "number"
    case Str(_) => "string"
  }

  /** `value.map(item => getType(item))`. */
  function ElementTypes(items: seq<Json>): (r: seq<string>)
    ensures |r| == |items|
    ensures forall k :: 0 <= k < |items| ==> r[k] == GetType(items[k])
    decreases Arr(items), 0
  {
    seq(|items|, k requires 0 <= k < |items| => GetType(items[k]))
  }

  /** `getInterface(obj)`: `{ key: type; ... }` over the entries in order. */
  function GetInterface(members: seq<Member>): (r: string)
    ensures |r| >= 4 && r[0] == '{' && r[1] == ' ' && r[|r| - 2] == ' ' && r[|r| - 1] == '}'
    decreases Obj(members), 1
  {
    "{ " + Join("; ", PropertyTypes(members)) + " }"
  }

  /** The `key: type` strings of `getInterface`. */
  function PropertyTypes(members: seq<Member>): (r: seq<string>)
    ensures |r| == |members|
    ensures forall k :: 0 <= k < |members| ==> r[k] == members[k].key + ": " + GetType(members[k].value)
    decreases Obj(members), 0
  {
    seq(|members|, k requires 0 <= k < |members| => members[k].key + ": " + GetType(members[k].value))
  }

  /** The kind of value `getType` distinguishes. */
  datatype Kind = NullKind | UndefinedKind | BooleanKind | NumberKind | StringKind | DateKind | ArrayKind | ObjectKind

  function KindOf(v: Json): Kind
  {
    match v
    case Null => NullKind
    case Undefined => UndefinedKind
    case Bool(_) => BooleanKind
    case Num(_) => NumberKind
    case Str(_) => StringKind
    case Date(_) => DateKind
    case Arr(_) => ArrayKind
    case Obj(_) => ObjectKind
  }

  /**
    Reads the kind back from a rendered type string. The first character
    decides, except that `null` and `number` differ only in length.
  */
  function KindOfType(t: string): Option<Kind>
  {
    if |t| == 0 then None
    else if t[0] == 'A' then Some(ArrayKind)
    else if t[0] == '{' then Some(ObjectKind)
    else if t[0] == 'n' then (if |t| == 4 then Some(NullKind) else Some(NumberKind))
    else if t[0] == 'u' then Some(UndefinedKind)
    else if t[0] == 'b' then Some(BooleanKind)
    else if t[0] == 's' then Some(StringKind)
    else if t[0] == 'D' then Some(DateKind)
    else None
  }

  /**
    A non-empty array renders as `Array<...>` over its distinct element types,
    each listed once, every element's type among them, in order of first occurrence.
  */
  lemma ArrayTypeLists(items: seq<Json>)
    requires |items| > 0
    ensures GetType(Arr(items)) == "Array<" + Join(" | ", Distinct(ElementTypes(items))) + ">"
    ensures NoDup(Distinct(ElementTypes(items)))
    ensures forall k :: 0 <= k < |items| ==> GetType(items[k]) in Distinct(ElementTypes(items))
    ensures forall i :: 0 <= i < |Distinct(ElementTypes(items))| ==>
      exists k :: 0 <= k < |items| && GetType(items[k]) == Distinct(ElementTypes(items))[i]
    ensures forall i, j :: 0 <= i < j < |Distinct(ElementTypes(items))| ==>
      FirstIndex(ElementTypes(items), Distinct(ElementTypes(items))[i])
        < FirstIndex(ElementTypes(items), Distinct(ElementTypes(items))[j])
  {
    var ets := ElementTypes(items);
    ArrayTypeText(items);
    ElementTypesListed(items, ets, Distinct(ets));
    DistinctOrdered(ets);
  }

  lemma ArrayTypeText(items: seq<Json>)
    requires |items| > 0
    ensures GetType(Arr(items)) == "Array<" + Join(" | ", Distinct(ElementTypes(items))) + ">"
  {
  }

  lemma ElementTypesListed(items: seq<Json>, ets: seq<string>, ts: seq<string>)
    requires ets == ElementTypes(items) && ts == Distinct(ets)
    ensures forall k :: 0 <= k < |items| ==> GetType(items[k]) in ts
    ensures forall i :: 0 <= i < |ts| ==> exists k :: 0 <= k < |items| && GetType(items[k]) == ts[i]
  {
    forall k | 0 <= k < |items| ensures GetType(items[k]) in ts
    {
      assert ets[k] == GetType(items[k]);
    }
    forall i | 0 <= i < |ts| ensures exists k :: 0 <= k < |items| && GetType(items[k]) == ts[i]
    {
      var k := FirstIndex(ets, ts[i]);
      assert GetType(items[k]) == ts[i];
    }
  }

  /** The type names of `null`, `undefined`, the primitives, dates and the empty array. */
  lemma TypeNames(b: bool, n: int, s: string, time: int)
    ensures GetType(Null) == "null" && GetType(Undefined) == "undefined"
    ensures GetType(Bool(b)) == "boolean" && GetType(Num(n)) == "number" && GetType(Str(s)) == "string"
    ensures GetType(Date(time)) == "Date"
    ensures GetType(Arr([])) == "Array<any>"
  {
  }

  /** An empty object renders as `{  }`; one entry renders as `{ key: type }`. */
  lemma InterfaceShapes(key: string, v: Json)
    ensures GetType(Obj([])) == "{  }"
    ensures GetType(Obj([Member(key, v)])) == "{ " + (key + ": " + GetType(v)) + " }"
  {
    assert PropertyTypes([]) == [];
    assert PropertyTypes([Member(key, v)]) == [key + ": " + GetType(v)];
  }

  /**
    `getInterface` grows one field at a time: one more entry replaces the
    closing ` }` by `; key: type }`.
  */
  lemma InterfaceSnoc(members: seq<Member>, m: Member)
    requires |members| > 0
    ensures var before := GetInterface(members);
      GetInterface(members + [m]) == before[..|before| - 2] + "; " + (m.key + ": " + GetType(m.value)) + " }"
  {
    var ps := PropertyTypes(members);
    var q := m.key + ": " + GetType(m.value);
    PropertyTypesSnoc(members, m);
    JoinSnoc("; ", ps, q);
    BraceSnoc(Join("; ", ps), q);
  }

  lemma PropertyTypesSnoc(members: seq<Member>, m: Member)
    ensures PropertyTypes(members + [m]) == PropertyTypes(members) + [m.key + ": " + GetType(m.value)]
  {
    var ms := members + [m];
    assert forall k :: 0 <= k < |members| ==> ms[k] == members[k];
    assert ms[|members|] == m;
  }

  /** A `; q` inserted before the closing ` }` of `{ j }`. */
  lemma BraceSnoc(j: string, q: string)
    ensures var before := "{ " + j + " }";
      before[..|before| - 2] + "; " + q + " }" == "{ " + (j + "; " + q) + " }"
  {
    var before := "{ " + j + " }";
    assert before[..|before| - 2] == "{ " + j;
  }

  // ---------------------------------------------------------------------------
  // inferTypesFromData

  /** `Object.entries` throws for `null` and `undefined`. */
  predicate Nullish(v: Json)
  {
    v.Null? || v.Undefined?
  }

  /**
    `Object.entries(item)` for a non-nullish item: an object's own entries, an
    array's or string's elements under their decimal indices, nothing for
    numbers, booleans and dates.
  */
  function OwnEntries(v: Json): seq<Member>
    requires !Nullish(v)
  {
    match v
    case Obj(members) => members
    case Arr(items) => seq(|items|, k requires 0 <= k < |items| => Member(NatToString(k), items[k]))
    case Str(s) => seq(|s|, k requires 0 <= k < |s| => Member(NatToString(k), Str([s[k]])))
    case _ => []
  }

  const NullishEntriesMessage := "Cannot convert undefined or null to object"

  /** One key of `typeDefinitions` with its `Set` of type strings, in insertion order. */
  datatype KeyTypes = KeyTypes(key: string, types: seq<string>)

  function KeysOf(d: seq<KeyTypes>): seq<string>
  {
    seq(|d|, p requires 0 <= p < |d| => d[p].key)
  }

  /** `set.add(t)`: appended if new, otherwise no change. */
  function AddToSet(xs: seq<string>, t: string): (r: seq<string>)
    ensures NoDup(xs) ==> NoDup(r)
    ensures forall x :: x in r <==> x in xs || x == t
  {
    if t in xs then xs else xs + [t]
  }

  /**
    One step of the accumulation: create the key's set if the key is new
    (appending the key), then add the type.
  */
  function AddType(d: seq<KeyTypes>, key: string, t: string): seq<KeyTypes>
  {
    if key in KeysOf(d) then
      var p := FirstIndex(KeysOf(d), key);
      d[p := KeyTypes(key, AddToSet(d[p].types, t))]
    else d + [KeyTypes(key, [t])]
  }

  /** `Object.entries(item).forEach(...)`. */
  function AddMembers(d: seq<KeyTypes>, members: seq<Member>): seq<KeyTypes>
    decreases |members|
  {
    if |members| == 0 then d
    else AddMembers(AddType(d, members[0].key, GetType(members[0].value)), members[1..])
  }

  /** `data.forEach(...)`: the first nullish item throws and nothing is returned. */
  function Collect(d: seq<KeyTypes>, data: seq<Json>): Result<seq<KeyTypes>, TypeError>
    decreases |data|
  {
    if |data| == 0 then Success(d)
    else if Nullish(data[0]) then Failure(TypeError(NullishEntriesMessage))
    else Collect(AddMembers(d, OwnEntries(data[0])), data[1..])
  }

  /** `  key: t1 | t2;` with the key's types sorted. */
  function KeyLine(e: KeyTypes): string
  {
    "  " + e.key + ": " + Join(" | ", Sort(e.types)) + ";"
  }

  function ListingLines(interfaceName: string, d: seq<KeyTypes>): seq<string>
  {
    [interfaceName + " {"] + seq(|d|, p requires 0 <= p < |d| => KeyLine(d[p])) + ["}"]
  }

  // ---- the declarative description of the listing ---------------------------

  /** All entries of all non-nullish items, in processing order. */
  ghost function AllEntries(data: seq<Json>): seq<Member>
  {
    if |data| == 0 then []
    else if Nullish(data[0]) then AllEntries(data[1..])
    else OwnEntries(data[0]) + AllEntries(data[1..])
  }

  function MemberKeys(all: seq<Member>): seq<string>
  {
    seq(|all|, k requires 0 <= k < |all| => all[k].key)
  }

  /** The types seen under `key`: only entries that carry the key contribute. */
  ghost function TypesFor(all: seq<Member>, key: string): set<string>
  {
    set k | 0 <= k < |all| && all[k].key == key :: GetType(all[k].value)
  }

  ghost function SetOf(xs: seq<string>): set<string>
  {
    set x | x in xs
  }

  /**
    `lines` is the listing for `all`: a header line, then one line per distinct
    key in order of first appearance, carrying the union of that key's types
    sorted ascending without repeats, then the closing brace.
  */
  ghost predicate IsListing(lines: seq<string>, interfaceName: string, all: seq<Member>)
  {
    var keys := Distinct(MemberKeys(all));
    && |lines| == |keys| + 2
    && lines[0] == interfaceName + " {"
    && lines[|keys| + 1] == "}"
    && forall k :: 0 <= k < |keys| ==>
         exists ts :: StrictlySorted(ts) && SetOf(ts) == TypesFor(all, keys[k])
                      && lines[k + 1] == "  " + keys[k] + ": " + Join(" | ", ts) + ";"
  }

  /** The accumulator `d` holds exactly the keys and type sets of the entries `all`. */
  ghost predicate Represents(d: seq<KeyTypes>, all: seq<Member>)
  {
    && KeysOf(d) == Distinct(MemberKeys(all))
    && forall p :: 0 <= p < |d| ==> NoDup(d[p].types) && SetOf(d[p].types) == TypesFor(all, d[p].key)
  }

  lemma TypesForAppend(all: seq<Member>, m: Member, key: string)
    ensures TypesFor(all + [m], key) == TypesFor(all, key) + (if m.key == key then {GetType(m.value)} else {})
  {
    var all' := all + [m];
    forall t | t in TypesFor(all', key)
      ensures t in TypesFor(all, key) + (if m.key == key then {GetType(m.value)} else {})
    {
      var k :| 0 <= k < |all'| && all'[k].key == key && GetType(all'[k].value) == t;
      if k < |all| { assert all'[k] == all[k]; }
    }
    forall t | t in TypesFor(all, key) ensures t in TypesFor(all', key)
    {
      var k :| 0 <= k < |all| && all[k].key == key && GetType(all[k].value) == t;
      assert all'[k] == all[k];
    }
    if m.key == key {
      assert all'[|all|] == m;
    }
  }

  lemma TypesForAbsent(all: seq<Member>, key: string)
    requires key !in Distinct(MemberKeys(all))
    ensures TypesFor(all, key) == {}
  {
    var keys := MemberKeys(all);
    forall k | 0 <= k < |all| ensures all[k].key != key
    {
      assert keys[k] == all[k].key;
    }
  }

  lemma AddTypeKeys(d: seq<KeyTypes>, key: string, t: string)
    ensures KeysOf(AddType(d, key, t)) == if key in KeysOf(d) then KeysOf(d) else KeysOf(d) + [key]
  {
  }

  lemma SetOfAddToSet(xs: seq<string>, t: string)
    ensures SetOf(AddToSet(xs, t)) == SetOf(xs) + {t}
  {
    var r := AddToSet(xs, t);
    forall x ensures x in SetOf(r) <==> x in SetOf(xs) + {t}
    {
      assert x in SetOf(r) <==> x in r;
      assert x in SetOf(xs) <==> x in xs;
    }
  }

  lemma AddTypeEntry(d: seq<KeyTypes>, all: seq<Member>, m: Member, p: nat)
    requires Represents(d, all)
    requires p < |AddType(d, m.key, GetType(m.value))|
    ensures var e := AddType(d, m.key, GetType(m.value))[p];
      NoDup(e.types) && SetOf(e.types) == TypesFor(all + [m], e.key)
  {
    var t := GetType(m.value);
    var d' := AddType(d, m.key, t);
    TypesForAppend(all, m, d'[p].key);
    if m.key in KeysOf(d) {
      var q := FirstIndex(KeysOf(d), m.key);
      if p == q {
        SetOfAddToSet(d[p].types, t);
      } else {
        assert d'[p] == d[p];
        assert KeysOf(d)[p] != KeysOf(d)[q];
      }
    } else if p < |d| {
      assert d'[p] == d[p];
      assert d[p].key == KeysOf(d)[p];
    } else {
      TypesForAbsent(all, m.key);
      assert d'[p] == KeyTypes(m.key, [t]);
      assert SetOf([t]) == {t};
    }
  }

  lemma AddTypeKeysTracked(d: seq<KeyTypes>, all: seq<Member>, key: string, t: string, m: Member)
    requires KeysOf(d) == Distinct(MemberKeys(all)) && m.key == key
    ensures KeysOf(AddType(d, key, t)) == Distinct(MemberKeys(all + [m]))
  {
    var keys := MemberKeys(all);
    MemberKeysSnoc(all, m);
    DistinctSnoc(keys, key);
    AddTypeKeys(d, key, t);
    if key in KeysOf(d) {
      assert Distinct(keys + [key]) == Distinct(keys);
    } else {
      assert Distinct(keys + [key]) == Distinct(keys) + [key];
    }
  }

  lemma MemberKeysSnoc(all: seq<Member>, m: Member)
    ensures MemberKeys(all + [m]) == MemberKeys(all) + [m.key]
  {
    var all' := all + [m];
    assert forall k :: 0 <= k < |all| ==> all'[k] == all[k];
  }

  lemma AddTypeRepresents(d: seq<KeyTypes>, all: seq<Member>, m: Member)
    requires Represents(d, all)
    ensures Represents(AddType(d, m.key, GetType(m.value)), all + [m])
  {
    var d' := AddType(d, m.key, GetType(m.value));
    AddTypeKeysTracked(d, all, m.key, GetType(m.value), m);
    forall p | 0 <= p < |d'|
      ensures NoDup(d'[p].types) && SetOf(d'[p].types) == TypesFor(all + [m], d'[p].key)
    {
      AddTypeEntry(d, all, m, p);
    }
  }

  lemma {:induction false} AddMembersRepresents(d: seq<KeyTypes>, all: seq<Member>, members: seq<Member>)
    requires Represents(d, all)
    ensures Represents(AddMembers(d, members), all + members)
    decreases |members|
  {
    if |members| > 0 {
      var m := members[0];
      var d' := AddType(d, m.key, GetType(m.value));
      AddTypeRepresents(d, all, m);
      AddMembersRepresents(d', all + [m], members[1..]);
      assert AddMembers(d, members) == AddMembers(d', members[1..]);
      assert [m] + members[1..] == members;
      AppendAssoc(all, [m], members[1..]);
    } else {
      assert all + members == all;
    }
  }

  /** The accumulation throws exactly when some item is nullish. */
  lemma {:induction false} CollectSucceedsIff(d: seq<KeyTypes>, data: seq<Json>)
    ensures Collect(d, data).Success? <==> forall k :: 0 <= k < |data| ==> !Nullish(data[k])
    decreases |data|
  {
    if |data| > 0 && !Nullish(data[0]) {
      CollectSucceedsIff(AddMembers(d, OwnEntries(data[0])), data[1..]);
      assert forall k :: 1 <= k < |data| ==> data[1..][k - 1] == data[k];
    }
  }

  lemma {:induction false} CollectRepresents(d: seq<KeyTypes>, all: seq<Member>, data: seq<Json>)
    requires Represents(d, all)
    requires forall k :: 0 <= k < |data| ==> !Nullish(data[k])
    ensures Collect(d, data).Success?
    ensures Represents(Collect(d, data).value, all + AllEntries(data))
    decreases |data|
  {
    if |data| == 0 {
      assert all + AllEntries(data) == all;
    } else {
      var entries := OwnEntries(data[0]);
      var d' := AddMembers(d, entries);
      AddMembersRepresents(d, all, entries);
      assert Collect(d, data) == Collect(d', data[1..]);
      assert AllEntries(data) == entries + AllEntries(data[1..]);
      assert forall k :: 0 <= k < |data| - 1 ==> data[1..][k] == data[k + 1];
      CollectRepresents(d', all + entries, data[1..]);
      AppendAssoc(all, entries, AllEntries(data[1..]));
    }
  }

  /** A key's line lists its types sorted ascending, each once. */
  lemma KeyLineListsTypes(e: KeyTypes, types: set<string>)
    requires NoDup(e.types) && SetOf(e.types) == types
    ensures exists ts :: StrictlySorted(ts) && SetOf(ts) == types
                         && KeyLine(e) == "  " + e.key + ": " + Join(" | ", ts) + ";"
  {
    var ts := Sort(e.types);
    SortDistinct(e.types);
    forall x ensures x in SetOf(ts) <==> x in SetOf(e.types)
    {
      assert x in SetOf(ts) <==> x in ts;
      assert x in SetOf(e.types) <==> x in e.types;
      if x in ts {
        var i :| 0 <= i < |ts| && ts[i] == x;
      }
      if x in e.types {
        var i :| 0 <= i < |e.types| && e.types[i] == x;
      }
    }
    assert SetOf(ts) == types;
  }

  /** The listing built from an accumulator that represents `all` is the listing of `all`. */
  lemma ListingOfRepresentation(interfaceName: string, d: seq<KeyTypes>, all: seq<Member>)
    requires Represents(d, all)
    ensures IsListing(ListingLines(interfaceName, d), interfaceName, all)
  {
    var lines := ListingLines(interfaceName, d);
    var keys := Distinct(MemberKeys(all));
    assert |keys| == |KeysOf(d)| == |d|;
    forall k | 0 <= k < |keys|
      ensures exists ts :: StrictlySorted(ts) && SetOf(ts) == TypesFor(all, keys[k])
                           && lines[k + 1] == "  " + keys[k] + ": " + Join(" | ", ts) + ";"
    {
      ListingLineOf(interfaceName, d, all, k);
    }
  }

  lemma ListingLineOf(interfaceName: string, d: seq<KeyTypes>, all: seq<Member>, k: nat)
    requires Represents(d, all)
    requires k < |d|
    ensures var key := Distinct(MemberKeys(all))[k];
      exists ts :: StrictlySorted(ts) && SetOf(ts) == TypesFor(all, key)
                   && ListingLines(interfaceName, d)[k + 1] == "  " + key + ": " + Join(" | ", ts) + ";"
  {
    assert KeysOf(d)[k] == d[k].key;
    assert ListingLines(interfaceName, d)[k + 1] == KeyLine(d[k]);
    KeyLineListsTypes(d[k], TypesFor(all, d[k].key));
  }

  /**
    `inferTypesFromData(interfaceName, data)`, with the accumulator keyed by
    own properties only (see `InferTypesFromDataAsWritten` for the source's
    plain-object dictionary). It throws exactly when some item is `null` or
    `undefined`; otherwise the result is the listing of all entries joined by
    newlines.
  */
  function InferTypesFromData(interfaceName: string, data: seq<Json>): (r: Result<string, TypeError>)
    ensures r.Failure? <==> exists k :: 0 <= k < |data| && Nullish(data[k])
    ensures r.Failure? ==> r.error == TypeError(NullishEntriesMessage)
    ensures r.Success? ==>
      exists lines :: r.value == Join("\n", lines) && IsListing(lines, interfaceName, AllEntries(data))
  {
    assert Represents([], []);
    CollectSucceedsIff([], data);
    match Collect([], data)
    case Failure(e) =>
      CollectFailure([], data);
      Failure(e)
    case Success(d) =>
      CollectRepresents([], [], data);
      assert [] + AllEntries(data) == AllEntries(data);
      ListingOfRepresentation(interfaceName, d, AllEntries(data));
      Success(Join("\n", ListingLines(interfaceName, d)))
  }

  lemma {:induction false} CollectFailure(d: seq<KeyTypes>, data: seq<Json>)
    requires Collect(d, data).Failure?
    ensures Collect(d, data).error == TypeError(NullishEntriesMessage)
    decreases |data|
  {
    if !Nullish(data[0]) {
      CollectFailure(AddMembers(d, OwnEntries(data[0])), data[1..]);
    }
  }

  /** The output opens with `<interfaceName> {` on its own line and closes with `}`. */
  lemma ListingFrame(interfaceName: string, data: seq<Json>)
    requires InferTypesFromData(interfaceName, data).Success?
    ensures var out := InferTypesFromData(interfaceName, data).value;
      var head := interfaceName + " {\n";
      |out| >= |head| + 1 && out[..|head|] == head && out[|out| - 2..] == "\n}"
  {
    var out := InferTypesFromData(interfaceName, data).value;
    var lines :| out == Join("\n", lines) && IsListing(lines, interfaceName, AllEntries(data));
    JoinFrame(lines);
  }

  lemma {:induction false} JoinFrame(lines: seq<string>)
    requires |lines| >= 2 && lines[|lines| - 1] == "}"
    ensures var out := Join("\n", lines);
      && out == lines[0] + "\n" + Join("\n", lines[1..])
      && |out| >= |lines[0]| + 2
      && out[|out| - 2..] == "\n}"
    decreases |lines|
  {
    if |lines| > 2 {
      JoinFrame(lines[1..]);
    }
  }

  // ---------------------------------------------------------------------------
  // The source as written: `typeDefinitions` is a plain object literal.

  /**
    Properties every plain object inherits from `Object.prototype`. Looking one
    of them up on `{}` yields a function or object, which is truthy.
  */
  const ObjectPrototypeNames: set<string> := {
    "constructor", "hasOwnProperty", "isPrototypeOf", "propertyIsEnumerable",
    "toLocaleString", "toString", "valueOf", "__proto__",
    "__defineGetter__", "__defineSetter__", "__lookupGetter__", "__lookupSetter__"
  }

  const NotAFunctionMessage := "typeDefinitions[key].add is not a function"

  /**
    One step as written: `typeDefinitions[key]` finds an inherited property
    for a key such as `constructor`, so no `Set` is created, and calling `.add`
    on the inherited value throws a TypeError.
  */
  function AddTypeAsWritten(d: seq<KeyTypes>, key: string, t: string): Result<seq<KeyTypes>, TypeError>
  {
    if key !in KeysOf(d) && key in ObjectPrototypeNames then Failure(TypeError(NotAFunctionMessage))
    else Success(AddType(d, key, t))
  }

  function AddMembersAsWritten(d: seq<KeyTypes>, members: seq<Member>): Result<seq<KeyTypes>, TypeError>
    decreases |members|
  {
    if |members| == 0 then Success(d)
    else match AddTypeAsWritten(d, members[0].key, GetType(members[0].value))
      case Failure(e) => Failure(e)
      case Success(d') => AddMembersAsWritten(d', members[1..])
  }

  function CollectAsWritten(d: seq<KeyTypes>, data: seq<Json>): Result<seq<KeyTypes>, TypeError>
    decreases |data|
  {
    if |data| == 0 then Success(d)
    else if Nullish(data[0]) then Failure(TypeError(NullishEntriesMessage))
    else match AddMembersAsWritten(d, OwnEntries(data[0]))
      case Failure(e) => Failure(e)
      case Success(d') => CollectAsWritten(d', data[1..])
  }

  /** `inferTypesFromData` exactly as written, with the prototype lookup. */
  function InferTypesFromDataAsWritten(interfaceName: string, data: seq<Json>): (r: Result<string, TypeError>)
    ensures (forall k :: 0 <= k < |data| && !Nullish(data[k]) ==>
      forall m :: m in OwnEntries(data[k]) ==> m.key !in ObjectPrototypeNames)
      ==> r == InferTypesFromData(interfaceName, data)
  {
    assert (forall k :: 0 <= k < |data| && !Nullish(data[k]) ==>
      forall m :: m in OwnEntries(data[k]) ==> m.key !in ObjectPrototypeNames)
      ==> CollectAsWritten([], data) == Collect([], data) by {
      if forall k :: 0 <= k < |data| && !Nullish(data[k]) ==>
        forall m :: m in OwnEntries(data[k]) ==> m.key !in ObjectPrototypeNames {
        AsWrittenAgreesOffPrototype([], data);
      }
    }
    match CollectAsWritten([], data)
    case Failure(e) => Failure(e)
    case Success(d) => Success(Join("\n", ListingLines(interfaceName, d)))
  }

  /** A record with one field, named `constructor`. */
  function ConstructorRecord(value: Json): Json
  {
    Obj([Member("constructor", value)])
  }

  /** A record with a field named `constructor` makes the source throw... */
  lemma ConstructorKeyThrows(interfaceName: string, value: Json)
    ensures InferTypesFromDataAsWritten(interfaceName, [ConstructorRecord(value)]) == Failure(TypeError(NotAFunctionMessage))
  {
    assert KeysOf([]) == [];
    assert AddMembersAsWritten([], OwnEntries(ConstructorRecord(value))) == Failure(TypeError(NotAFunctionMessage));
  }

  lemma SingleFieldCollected(key: string, value: Json)
    ensures Collect([], [Obj([Member(key, value)])]) == Success([KeyTypes(key, [GetType(value)])])
  {
    var data := [Obj([Member(key, value)])];
    var d := [KeyTypes(key, [GetType(value)])];
    assert KeysOf([]) == [];
    assert AddType([], key, GetType(value)) == d;
    assert AddMembers([], OwnEntries(data[0])) == d;
    assert Collect([], data) == Collect(d, data[1..]);
  }

  lemma SingleKeyListing(interfaceName: string, key: string, t: string)
    ensures ListingLines(interfaceName, [KeyTypes(key, [t])]) == [interfaceName + " {", "  " + key + ": " + t + ";", "}"]
  {
    assert Sort([t]) == [t];
    assert Join(" | ", [t]) == t;
  }

  /** A record with a single field is listed as that field with its type. */
  lemma SingleFieldListed(interfaceName: string, key: string, value: Json)
    ensures InferTypesFromData(interfaceName, [Obj([Member(key, value)])])
      == Success(Join("\n", [interfaceName + " {", "  " + key + ": " + GetType(value) + ";", "}"]))
  {
    var d := [KeyTypes(key, [GetType(value)])];
    SingleFieldCollected(key, value);
    assert InferTypesFromData(interfaceName, [Obj([Member(key, value)])]) == Success(Join("\n", ListingLines(interfaceName, d)));
    SingleKeyListing(interfaceName, key, GetType(value));
  }

  /** ... where the corrected model lists the field with its type. */
  lemma ConstructorKeyListed(interfaceName: string, value: Json)
    ensures InferTypesFromData(interfaceName, [ConstructorRecord(value)])
      == Success(Join("\n", [interfaceName + " {", "  " + "constructor" + ": " + GetType(value) + ";", "}"]))
  {
    SingleFieldListed(interfaceName, "constructor", value);
  }

  /** Without keys inherited from `Object.prototype`, the source and the corrected model agree. */
  lemma {:induction false} AsWrittenAgreesOffPrototype(d: seq<KeyTypes>, data: seq<Json>)
    requires forall k :: 0 <= k < |data| && !Nullish(data[k]) ==>
      forall m :: m in OwnEntries(data[k]) ==> m.key !in ObjectPrototypeNames
    ensures CollectAsWritten(d, data) == Collect(d, data)
    decreases |data|
  {
    if |data| > 0 && !Nullish(data[0]) {
      AddMembersAgree(d, OwnEntries(data[0]));
      assert forall k :: 1 <= k < |data| ==> data[1..][k - 1] == data[k];
      AsWrittenAgreesOffPrototype(AddMembers(d, OwnEntries(data[0])), data[1..]);
    }
  }

  lemma {:induction false} AddMembersAgree(d: seq<KeyTypes>, members: seq<Member>)
    requires forall m :: m in members ==> m.key !in ObjectPrototypeNames
    ensures AddMembersAsWritten(d, members) == Success(AddMembers(d, members))
    decreases |members|
  {
    if |members| > 0 {
      assert members[0] in members;
      assert forall m :: m in members[1..] ==> m in members;
      AddMembersAgree(AddType(d, members[0].key, GetType(members[0].value)), members[1..]);
    }
  }
}

=== FILE: wrappers.dfy ===
/** Failure-carrying results: the model's stand-in for JavaScript exceptions. */
module Wrappers {

  datatype Option<+T> = None | Some(value: T)

  /** `Success` is a normal return; `Failure` is a thrown error. */
  datatype Result<+R, +E> = Success(value: R) | Failure(error: E)
}
